=== FILE: README.md ===
# StreamX front-end logic in Dafny

StreamX is a streaming front end written in React and TypeScript. Its
behaviour lives in event handlers and effects inside six components and one
service. This project lifts that logic out as total functions over immutable
data, and as small state machines driven by explicit events:

- **Watch page** (`Watch`): the (season, episode) cursor, the "next up"
  episode, the season selector, and the rule that an episode the cursor
  moves to is recorded as fully watched.
- **Video player** (`Player`, `TimeFormat`): play/pause, seeking, volume and
  mute, the settings panel with its speed and quality menus, keyboard
  shortcuts, the 3-second auto-hide timer, and the `HH:MM:SS` time label.
- **Watch-progress store** (`ProgressStore`): the local-storage map from id to
  progress, with its swallowed failures.
- **Admin dashboard** (`Admin`): season and episode edits on the entry form,
  the per-type clean-up on submit, the metadata merge, the settings update
  and the list search.
- **Home page** (`Home`): My List, the category filters, search, the featured
  entry, the maintenance gate and the page heading.
- **Details dialog** (`Details`): the initial season, the episode rows with
  their numbers and watched state, and the header fade ratio.

`Catalog` holds the records (`Media`, `Season`, `Episode`, `AppSettings`).
`Seqs` models the JavaScript array methods the code relies on: `findIndex`
returning -1, `find`, `filter`, `slice` and a descending sort. `Text` models
`toLowerCase` (ASCII letters only), `includes`, integer `toString` and
`padStart`.

Where the written specification and the code disagree, the model follows
the code:

- `formatTime` pads the hour field to two digits (`01:01:01`, not `1:01:01`).
- `skip` adds the delta with no clamping in the component.
- `setWatchedProgress` stores the value unclamped.
- A key press is not an auto-hide interaction; only mouse movement and
  touch start re-arm the timer.
- Escape closes the settings panel but leaves the active submenu as it was.

Time in the player is an explicit parameter. The auto-hide timer is a due
time (`hideAt`), and the browser's timer queue is the `TimerDue(now)` event.
Effect clean-ups appear as the timer being cancelled whenever `playing` or
`settingsOpen` changes. The catalog, the settings and the answer of the
metadata service are parameters; the saved list is a local-storage slot that
the toggle writes and the mount effect reads. Ids that the source draws
from `Math.random()` are parameters too.

## Model

| member | source | states |
|---|---|---|
| Text.ToLower | components/VideoPlayer.tsx:66 | lower-casing keeps the length and maps every character through the ASCII lower-case map |
| Text.ToLowerIdempotent | pages/HomePage.tsx:63-64 | a lower-cased string holds no upper-case letter, so lower-casing it again changes nothing |
| Text.ContainsIffOccurs | pages/AdminDashboard.tsx:196-198 | `includes` holds exactly when the needle occurs at some position of the haystack, in both directions |
| Text.NatToString | components/VideoPlayer.tsx:410-411 | the rendering of a number is one character exactly below 10 and starts with '0' only for 0 itself |
| Text.NatToStringValue | components/VideoPlayer.tsx:410-411 | the decimal rendering of a number consists of digits whose value is that number |
| Text.NatToStringOfDigits | components/VideoPlayer.tsx:410-411 | the reverse of the rendering: a digit string without a leading zero is the rendering of its own value |
| Text.PadStartShape | components/VideoPlayer.tsx:410-411 | `padStart` prefixes exactly the missing number of fill characters and never truncates |
| Text.Pad2Value | components/VideoPlayer.tsx:410-411 | a two-digit padded field is all digits and reads back as the padded number |
| Seqs.FindIndex | pages/WatchPage.tsx:64 | `findIndex` is -1 exactly when no element matches, and otherwise the first matching position |
| Seqs.Find | pages/WatchPage.tsx:35 | `find` is absent exactly when nothing matches, and otherwise the element at the first matching position |
| Seqs.Filter | pages/AdminDashboard.tsx:195-199 | `filter` keeps exactly the matching elements, each as often as before, in their original order |
| Seqs.FilterKeepsAll | pages/AdminDashboard.tsx:195-199 | a filter whose test holds everywhere returns the list unchanged |
| Seqs.SortDesc | pages/HomePage.tsx:48 | the sort returns a permutation of its input whose keys never increase |
| Seqs.Take | pages/HomePage.tsx:193 | `slice(0, n)` is the first `n` elements, or all of them when there are fewer |
| ProgressStore.GetWatchedProgress | services/storageService.ts:183-191 | reading yields 0 on any read or parse failure and for falsy stored values; a non-zero result is exactly the stored number |
| ProgressStore.SetWatchedProgress | services/storageService.ts:171-180 | on a healthy store the id reads back the written value and every other id reads as before; on failure the store is untouched |
| ProgressStore.GetUnwritten | services/storageService.ts:183-187 | an id never written reads as 0 |
| ProgressStore.SetThenGet | services/storageService.ts:171-176 | a write followed by a read returns the written number, and NaN (stored as null) reads as 0 |
| ProgressStore.SetOverwrites | services/storageService.ts:175 | a second write to the same id replaces the first, with no accumulation, so repeating a write is idempotent |
| ProgressStore.NoClamping | services/storageService.ts:175 | values above 100 or below 0 are stored as given |
| TimeFormat.Split | components/VideoPlayer.tsx:406-408 | minutes and seconds stay below 60 and `h*3600 + m*60 + s` equals the whole seconds |
| TimeFormat.SplitUnique | components/VideoPlayer.tsx:406-408 | fields with minutes and seconds below 60 that recombine to `n` are exactly the fields `formatTime` computes for `n` |
| TimeFormat.FormatWhole | components/VideoPlayer.tsx:409-410 | below one hour the label is the five-character `MM:SS`; from one hour on it is `HH:MM:SS` with colons at the two fixed tail positions |
| TimeFormat.FormatTime | components/VideoPlayer.tsx:404-411 | NaN or a negative value gives "00:00"; otherwise the label of the floor of the input, where the floating-point fields the code computes equal the integer fields |
| TimeFormat.JsFieldsAreWhole | components/VideoPlayer.tsx:406-408 | `floor(x/3600)`, `floor((x%3600)/60)` and `floor(x%60)` on a non-negative real equal the fields of `floor(x)` |
| TimeFormat.FormatWholeRoundTrip | components/VideoPlayer.tsx:409-411 | parsing the label of a whole number of seconds gives that number back, with minute and second fields below 60 and a non-zero hour field |
| TimeFormat.ParseClockCanonical | components/VideoPlayer.tsx:406-410 | the other direction: any text that reads as `n` is exactly the label of `n`, so a field of 60 or more, an extra leading zero or a zero hour field is rejected |
| Text.PaddedDigits | components/VideoPlayer.tsx:409-410 | a field of the padded shape (two digits, or more without a leading zero) is the padding of its own value |
| Text.Pad2Padded | components/VideoPlayer.tsx:409-410 | `padStart(2, "0")` of a numeral always has that padded shape |
| TimeFormat.FormatTimeRoundTrip | components/VideoPlayer.tsx:404-411 | every label parses back, to the floor of the input, or to 0 for NaN and negative input |
| TimeFormat.FormatTimeExamples | components/VideoPlayer.tsx:404-411 | 0 → "00:00", 65 → "01:05", 3661 → "01:01:01", -5 and NaN → "00:00" |
| Player.ProgressPercent | components/VideoPlayer.tsx:112-113 | the bar fill times the duration is the position times 100; it is 0 while the duration is NaN and within 0..100 for a position inside the video |
| Player.DoTogglePlay | components/VideoPlayer.tsx:90-98 | the element's `paused` flag decides: a paused element plays and the flag becomes true, otherwise it pauses; nothing else changes |
| Player.DoToggleMute | components/VideoPlayer.tsx:131-137 | muting flips only the mute flag and never the volume |
| Player.DoVolume | components/VideoPlayer.tsx:139-147 | the slider value becomes the volume and the player is muted exactly when it is 0 |
| Player.DoSkip | components/VideoPlayer.tsx:100-104 | the position moves by exactly the delta, with no clamping |
| Player.DoSeek | components/VideoPlayer.tsx:123-129 | with a known duration the position becomes fraction × duration, inside the video for a fraction in 0..1; with a NaN duration nothing changes |
| Player.DoPickSpeed | components/VideoPlayer.tsx:158-164 | picking a speed commits it and returns to the root menu with the panel still open |
| Player.DoPickQuality | components/VideoPlayer.tsx:166-169 | picking a quality commits it and returns to the root menu with the panel still open |
| Player.DoToggleSettings | components/VideoPlayer.tsx:171-174 | the panel flips and the menu is always back at the root |
| Player.Shortcut | components/VideoPlayer.tsx:66-84 | on an already lower-cased key, no shortcut changes the panel, the menu, speed, quality or volume, and `playing` stays in step with the element |
| Player.OnKey | components/VideoPlayer.tsx:60-88 | with the panel open no key touches playback or the menu, and keys other than Escape change nothing; the shortcuts never change speed, quality or volume |
| Player.OnPointer | components/VideoPlayer.tsx:42-48 | an interaction shows the controls and replaces any pending timer with one due 3000 ms later |
| Player.OnTimer | components/VideoPlayer.tsx:45-47 | before the due time nothing happens; once due the timer is spent and the controls hide only while playing with the panel closed; no other player field changes |
| Player.Step | components/VideoPlayer.tsx:40-58 | whenever an event changes `playing` or the panel's state the pending timer is cancelled; otherwise the handler's result stands; apart from the timer nothing differs from the handler's result |
| Player.SliderValue | components/VideoPlayer.tsx:282 | the slider shows 0 while muted and the volume otherwise |
| Player.Icon | components/VideoPlayer.tsx:176-180 | the silent icon exactly when muted or at volume 0; the low icon exactly when unmuted with a volume strictly between 0 and 0.5 |
| Player.IconFollowsSlider | components/VideoPlayer.tsx:176-180 | on a valid state the icon is silent exactly when the slider shows 0, low exactly strictly between 0 and one half, high from one half on, and muting always shows the silent icon |
| Player.TimeLabels | components/VideoPlayer.tsx:290-295 | each control-bar label reads back as the whole seconds of the shown time or duration, and is "00:00" for NaN or a negative value |
| Player.ApplyKeepsValid | components/VideoPlayer.tsx:90-174 | every handler, before the timer bookkeeping, keeps speed and quality within their menus, volume within 0..1 and `playing` in step with the element |
| Player.StepKeepsValid | components/VideoPlayer.tsx:158-174 | every event the controls can produce keeps speed and quality within their menus, volume within 0..1 and `playing` in step with the element |
| Player.RunKeepsValid | components/VideoPlayer.tsx:342-363 | any sequence of such events from a valid state keeps it valid |
| Player.InitialValid | components/VideoPlayer.tsx:21-31 | the mounted state (volume 0.5, speed 1, quality "Auto") is valid |
| Player.TogglePlayTwice | components/VideoPlayer.tsx:90-98 | toggling play flips `playing`, and toggling twice restores both flags |
| Player.MediaEventsWin | components/VideoPlayer.tsx:194-195 | the element's own play and pause events overwrite the flag |
| Player.MuteTwice | components/VideoPlayer.tsx:131-137 | two mute toggles restore the exact prior state and the volume never moves |
| Player.VolumeMutes | components/VideoPlayer.tsx:139-147 | a zero volume mutes, and any later non-zero volume unmutes and is kept |
| Player.SettingsWalk | components/VideoPlayer.tsx:301-345 | with the panel open, entering the speed menu and picking a speed commits it and returns to the root menu with the panel still open; Escape then closes the panel, keeps the speed and cancels the hide timer |
| Player.MenuKeyIsolation | components/VideoPlayer.tsx:62-65 | with the panel open, keys other than Escape change nothing and Escape only closes the panel (cancelling the timer) |
| Player.KeyDispatch | components/VideoPlayer.tsx:66-84 | with the panel closed, the key handler toggles play on " " and "k", fullscreen on "f", mute on "m", skips by ∓10 s on the arrows, and does nothing for any other lower-cased key |
| Player.ShortcutsIgnoreCase | components/VideoPlayer.tsx:66 | keys that lower-case alike have the same effect |
| Player.EscapeWhenClosed | components/VideoPlayer.tsx:66-84 | Escape does nothing while the panel is closed |
| Player.PointerKeepsControls | components/VideoPlayer.tsx:42-48 | before 3000 ms have passed since the last interaction the controls stay visible and the timer pending |
| Player.PointerThenHide | components/VideoPlayer.tsx:45-47 | once 3000 ms have passed the controls hide exactly when playing with the panel closed |
| Player.PointerRestartsWindow | components/VideoPlayer.tsx:44-45 | a second interaction replaces the first timer instead of adding one |
| Player.FlagChangeCancelsTimer | components/VideoPlayer.tsx:53-58 | starting or stopping playback and opening or closing the panel cancel the pending timer |
| Watch.ChangeEpisode | pages/WatchPage.tsx:56-60 | moving the cursor to a different episode records that episode as 100 and no other id changes; only the episode cursor and the progress store change; re-selecting the current episode changes nothing |
| Watch.Lookup | pages/WatchPage.tsx:35 | the looked-up entry is absent exactly when no entry has the id, and otherwise the first entry with it |
| Watch.Load | pages/WatchPage.tsx:30-53 | an empty id does nothing, an unknown id redirects home and changes nothing else, a known id loads exactly the catalog entry `find` returns, and the episode selector and sidebar are untouched |
| Watch.NextUp | pages/WatchPage.tsx:62-73 | nothing is next without a cursor; anything next is an episode of the current season or the first episode of one of the item's seasons |
| Watch.Next | pages/WatchPage.tsx:75-89 | without a next episode nothing changes; the season changes only when the next episode is not in the current season |
| Watch.PickSeason | pages/WatchPage.tsx:169-173 | the picked season becomes current and the selector closes; the episode moves to its first one only when it has episodes, else episode and store stay |
| Watch.PickEpisode | pages/WatchPage.tsx:192-195 | the card's episode becomes current and the sidebar closes only on a narrow window |
| Watch.ActiveVideoUrl | pages/WatchPage.tsx:93 | a movie plays its own URL and a series the current episode's, which is absent without an episode |
| Watch.ActiveTitle | pages/WatchPage.tsx:94 | a movie's title is its own; a series title is the item title, ": " and the episode title, or "undefined" without an episode |
| Watch.LoadedPlayerSource | pages/WatchPage.tsx:30-53 | right after loading, a movie plays its own source under its title, and a series the first episode of its first season under "title: episode title" |
| Watch.SidebarLabel | pages/WatchPage.tsx:204 | the card number is at least two digits and reads back as position + 1 |
| Watch.SidebarLabelIsPad2 | pages/WatchPage.tsx:204 | the card number is the same two-digit padding as the player's clock fields |
| Watch.LoadSeries | pages/WatchPage.tsx:38-42 | loading a series with seasons puts the cursor on the first season, and on its first episode when it has one; otherwise the episode is kept |
| Watch.LoadMovie | pages/WatchPage.tsx:43-46 | loading a movie records it as 100 in a healthy store and leaves the cursor alone |
| Watch.LoadUnknown | pages/WatchPage.tsx:47-49 | an id not in the catalog only redirects home |
| Watch.NextWithinSeason | pages/WatchPage.tsx:64-67 | at position i < len-1 of a season, the next episode is the one at i+1 |
| Watch.NextCrossesSeason | pages/WatchPage.tsx:68-71 | at the last episode of season k, the next one is season k+1's first episode, or nothing when that season is empty |
| Watch.EmptyNextSeasonHidesButton | pages/WatchPage.tsx:227 | when the following season is empty the "next" button is not rendered |
| Watch.NextAtEnd | pages/WatchPage.tsx:72 | at the last episode of the last season nothing is next |
| Watch.NextLandsInSeason | pages/WatchPage.tsx:75-89 | after "next" the cursor is on the announced episode, which belongs to the current season |
| Watch.ChangeEpisodeKeepsMarked | pages/WatchPage.tsx:56-60 | switching episodes keeps the current episode recorded as 100 in a healthy store |
| Watch.LoadKeepsMarked | pages/WatchPage.tsx:30-53 | loading an item, whatever the catalog holds, keeps the current episode recorded as 100 in a healthy store |
| Watch.NextKeepsMarked | pages/WatchPage.tsx:75-89 | advancing to the next episode, within or across seasons, keeps the current episode recorded as 100 in a healthy store |
| Watch.StepKeepsMarked | pages/WatchPage.tsx:56-60 | every page event keeps the current episode recorded as 100 in a healthy store |
| Watch.RunKeepsMarked | pages/WatchPage.tsx:56-60 | along any sequence of page events the current episode reads as fully watched |
| Watch.FreshMarked | pages/WatchPage.tsx:21-23 | a fresh page satisfies the watched invariant |
| Watch.SeriesPlayerShown | pages/WatchPage.tsx:104-105 | for a series the player is mounted exactly when an episode with a non-empty URL is current |
| Admin.EditDraft | pages/AdminDashboard.tsx:95-100 | editing copies every field of the entry into the form, the id and creation time included |
| Admin.EmptyDraft | pages/AdminDashboard.tsx:78-92 | the reset form is a new movie with no id, no title, the given year, a rating of 8 and an empty season list |
| Admin.EditThenSubmit | pages/AdminDashboard.tsx:56-64 | the edit form loses nothing, and submitting it for an entry that carries only its own kind's field saves that entry unchanged |
| Admin.ResetForm | pages/AdminDashboard.tsx:78-92 | a reset form asks the metadata service nothing, and its first added season is numbered 1 |
| Admin.Submit | pages/AdminDashboard.tsx:56-64 | a movie loses its season list and a series its URL, and every other field is kept |
| Admin.SubmitCleans | pages/AdminDashboard.tsx:58-64 | a submitted draft carries only its kind's field, and the clean-up is idempotent |
| Admin.AddSeason | pages/AdminDashboard.tsx:112-120 | exactly one empty season numbered count + 1 is appended, earlier seasons and every other field unchanged |
| Admin.RemoveSeason | pages/AdminDashboard.tsx:122-124 | the remaining seasons are exactly those with a different id, each as often as before, in their original order; a missing list is a fault |
| Admin.AddEpisode | pages/AdminDashboard.tsx:126-142 | each target season gains one episode at its end, numbered count + 1, and every other season is identical; a missing list is a fault |
| Admin.NewEpisodeShape | pages/AdminDashboard.tsx:129-136 | the new episode is titled "Episode " followed by the digits of its order, with an empty URL and duration "45m" |
| Admin.RemoveEpisode | pages/AdminDashboard.tsx:144-152 | target seasons keep, in order and each as often as before, exactly the episodes with a different id; other seasons are identical |
| Admin.ApplyEdit | pages/AdminDashboard.tsx:159 | an edit replaces only the named field of the episode |
| Admin.UpdateEpisode | pages/AdminDashboard.tsx:154-168 | only the named field of the matching episodes of the matching seasons changes; season count, ids, numbers and every episode count are kept |
| Admin.Merge | pages/AdminDashboard.tsx:175-184 | each of the seven fields takes the answer's value when truthy and keeps the form's otherwise, and no other field changes |
| Admin.AutoEnhance | pages/AdminDashboard.tsx:170-187 | the title is checked on the form at the click; without it or without an answer the form stays, otherwise the answer is merged into the form as it is when the answer arrives; identity, kind, URL and seasons are never touched |
| Admin.EnhanceAfterClearedTitle | pages/AdminDashboard.tsx:171-176 | a title cleared while the request is in flight does not stop the merge, and an empty answer title leaves it cleared |
| Admin.EnhanceWithNothing | pages/AdminDashboard.tsx:177-183 | an answer whose fields are all falsy changes nothing |
| Admin.EnhanceIdempotent | pages/AdminDashboard.tsx:175-184 | applying the same answer twice equals applying it once |
| Admin.EnhanceComplete | pages/AdminDashboard.tsx:177-183 | a complete answer overwrites all seven fields |
| Admin.UpdateSettings | pages/AdminDashboard.tsx:189-193 | a field present in the patch wins and an empty patch keeps the settings |
| Admin.UpdateSettingsCompose | pages/AdminDashboard.tsx:190 | two updates equal one update with the right-biased combination of the patches |
| Admin.MaintenanceSwitch | pages/AdminDashboard.tsx:360 | the switch flips the flag and flipping twice restores it |
| Admin.FilteredMedia | pages/AdminDashboard.tsx:195-199 | the result is an order-preserving subsequence holding exactly the entries whose lower-cased title, type or genre contains the lower-cased term, each as often as in the list |
| Admin.EmptyTermKeepsAll | pages/AdminDashboard.tsx:195-199 | an empty term keeps the whole list |
| Admin.SearchIgnoresCase | pages/AdminDashboard.tsx:196-198 | terms that lower-case alike select the same entries |
| Home.Mount | pages/HomePage.tsx:23-37 | the catalog is shown whole, the first entry is featured exactly when there is one, and the saved list is restored |
| Home.ToggleMyList | pages/HomePage.tsx:69-79 | the id's membership flips, no other id's membership changes, a removal keeps the order, drops every occurrence and keeps every other id as often as before, and an addition appends |
| Home.ToggleTwice | pages/HomePage.tsx:69-79 | adding an id and toggling it again restores the list |
| Home.RestoreList | pages/HomePage.tsx:31-34 | a missing or empty slot restores nothing, a written list restores exactly that list, and any other text is a read fault |
| Home.MountFromSlot | pages/HomePage.tsx:23-37 | mounting fails exactly when the slot cannot be read, and otherwise mounts on the restored list |
| Home.ToggleOnPage | pages/HomePage.tsx:69-79 | the toggle changes only the list in state and writes a slot that reads back as the new list |
| Home.ToggleSurvivesReload | pages/HomePage.tsx:78 | mounting from the slot a toggle wrote restores exactly the toggled list, and an empty slot starts with an empty list |
| Home.FilterChange | pages/HomePage.tsx:39-54 | the query is cleared; "home" shows the catalog, a type filter the entries of that type in order and with their multiplicity, "new" a permutation sorted newest first, "mylist" the listed entries in catalog order and with their multiplicity; other filters keep the grid |
| Home.Search | pages/HomePage.tsx:56-67 | an empty query re-applies the active filter; any other query keeps, in catalog order, exactly the entries whose lower-cased title or genre contains it, each as often as in the catalog |
| Home.SearchFindsTitle | pages/HomePage.tsx:62-64 | an entry whose title contains the query at some position is found |
| Home.SearchIgnoresCase | pages/HomePage.tsx:63-64 | queries that lower-case alike find the same entries |
| Home.PageTitle | pages/HomePage.tsx:156-163 | a query wins over the filter labels, and the heading is empty exactly for no query with a filter that has no label |
| Home.Render | pages/HomePage.tsx:143-196 | the maintenance notice shows exactly when maintenance is on for a non-administrator; the home view shows the featured hero and "Editor's Choice" as the first five entries; other views show the grid under the page title |
| Home.FeaturedIsFirst | pages/HomePage.tsx:27-29 | after mounting a non-empty catalog the hero is its first entry |
| Home.HomeRestores | pages/HomePage.tsx:43-44 | returning to "home" after any filter shows the whole catalog with the same featured entry |
| Home.GateAsWritten | pages/HomePage.tsx:18 | the gate as written reads the flag off the stored promise and never blocks |
| Home.MaintenanceGateBypassed | pages/HomePage.tsx:143 | with maintenance on and no administrator, the gate as written does not show the notice while the page on resolved settings does |
| Home.EditorsChoiceAsWritten | pages/HomePage.tsx:193 | the first home row as written throws on the stored promise and is the first five entries of a resolved catalog |
| Home.HomeRowsCrash | pages/HomePage.tsx:24-26 | whatever the catalog resolves to, the home rows as written throw after mounting, while the page on the resolved catalog shows its first five entries |
| Details.InitialSeason | components/DetailsModal.tsx:16-18 | the dialog opens on `seasons[0]` exactly for a series with a non-empty season list, and on no season otherwise |
| Details.OpensOnWatchSeason | components/DetailsModal.tsx:16-18 | the dialog opens on the season the watch page starts on for the same series, and lists episodes only when its episode section (line 186) is rendered |
| Details.SelectSeason | components/DetailsModal.tsx:195-199 | clicking a season tab selects that season of the item, and its tab becomes the highlighted one |
| Details.SelectionStaysListed | components/DetailsModal.tsx:195-214 | the dialog only ever selects one of the item's seasons, and after a tab click it lists exactly that season's episodes in order |
| Details.ScrollRatio | components/DetailsModal.tsx:22-26 | the ratio never exceeds 1, is offset/400 up to 400 pixels and 1 beyond, and is non-negative for a non-negative offset |
| Details.HeaderTitleShown | components/DetailsModal.tsx:48 | the header title shows exactly past 200 pixels of scrolling |
| Details.EpisodeRows | components/DetailsModal.tsx:208-233 | one row per episode, numbered position + 1, with the stored progress as the bar, completed exactly at 100 or more, leading to the item's watch route |
| Details.NumbersIgnoreOrder | components/DetailsModal.tsx:222 | the rows do not depend on the episodes' `order` fields |
| Details.FreshStoreNothingCompleted | components/DetailsModal.tsx:209-210 | with an empty store no row is completed and every bar is 0 |
| Details.WatchedEpisodeCompleted | components/DetailsModal.tsx:209-210 | after the watch page moves its cursor to an episode, that episode's row is completed with a full bar |
| Details.CurrentEpisodeCompleted | components/DetailsModal.tsx:209-210 | along any watch-page navigation, the current episode's row is completed |

## Left out

- The database side of the storage service (`init`, `getMedia`, `addMedia`, `updateMedia`, `deleteMedia`, `getSettings`, notifications) is remote I/O through a third-party driver. The catalog and the settings are parameters.
- The home page and the dashboard call the asynchronous `getMedia` and `getSettings` without awaiting them. The model uses the resolved values throughout. The consequences modelled as written are the maintenance gate and the home rows (see Findings). The dashboard's `[...data]` on the same promise (pages/AdminDashboard.tsx:46) throws in the same way and is not modelled.
- The metadata service (`services/aiService.ts`) is an external model call; only the merge of its answer is modelled, with the answer as a parameter.
- The login page, the navigation bar, routing, bootstrap and build configuration are markup or configuration with no logic to state.
- Native media behaviour is left out: the element's own clamping of `currentTime`, rejected `play()` promises, and infinite or zero durations. `Duration` is NaN or a positive real.
- Player.DoSkip: does not model the element clamping the position to the video's length, because that happens inside the browser, not in the component.
- The Fullscreen API is a flag that the fullscreen button, a double click and the "f" key flip; a rejected fullscreen request is not modelled.
- Timers and window listeners are the explicit `Pointer` and `TimerDue` events; there is no concurrency.
- Floating point: playback positions, volumes and ratios are exact reals. `formatTime` relates the real input to whole seconds through `Floor`. Numbers given to the progress store are integers or NaN.
- Text.ToLower: lower-cases ASCII letters only, because JavaScript's full Unicode case mapping is out of scope; the keys and terms involved are ASCII in practice.
- Home.RestoreList: any non-empty text other than a written list is a read fault. In the source, malformed text makes `JSON.parse` throw in the mount effect, while valid JSON that is not a list (such as `null`) is stored as the list and makes the next `includes` throw instead; the model does not tell the two apart.
- Admin.UpdateSettings: models only the in-memory spread and `setSettings`. The persisting call `storageService.updateSettings` (pages/AdminDashboard.tsx:192) names a method the storage service does not define, so it throws a TypeError and the new value is never stored; the model does not promise persistence.
- Admin.AddEpisode: every matching season receives the same fresh id, where the source draws a new random id per matching season. Season ids are unique in practice.
- Watch.ChangeEpisode: the progress effect reruns on a change of object identity, which the model approximates by value equality of episodes.
- The sort behind the "new" filter is stated as sorted and a permutation; its stability is not proved.
- Styling, animation, the sidebar's visual transitions and all other JSX rendering are left out.

## Findings

| source | as written | input that shows it | evidently intended | confidence | as-written member | corrected member |
|---|---|---|---|---|---|---|
| pages/HomePage.tsx:18 | the page stores the promise returned by the asynchronous `getSettings` (services/storageService.ts:125) and reads `isMaintenanceMode` off it at line 143, which is always undefined | maintenance mode on, visitor not the administrator | the maintenance notice shows | not executed | Home.GateAsWritten | Home.Render |
| pages/HomePage.tsx:24-26 | the mount effect stores the promise returned by the asynchronous `getMedia` (services/storageService.ts:59) in `allMedia`, and the home rows call `slice` on it at line 193, which a promise does not have | any catalog, home filter, no query | the home rows show the first five entries as Editor's Choice | not executed | Home.EditorsChoiceAsWritten | Home.Render |

=== FILE: admin.dfy ===
/** The admin dashboard's editing logic: the entry form as a draft record,
    the season and episode edits on it, the per-type clean-up on submit, the
    metadata-enhancement merge, the settings update and the list search. */
module Admin {
  import opened Wrappers
  import opened Text
  import opened Catalog
  import Seqs

  /** The form state. It starts as a fresh form or as a copy of an existing
      entry, so `id` and `createdAt` are present only when editing, and
      `videoUrl`, `backdropUrl` and `seasons` may be missing when the copied
      entry lacked them. */
  datatype Draft = Draft(
    id: Option<string>,
    title: string,
    kind: ContentType,
    thumbnailUrl: string,
    backdropUrl: Option<string>,
    videoUrl: Option<string>,
    seasons: Option<seq<Season>>,
    description: string,
    year: int,
    genre: string,
    rating: real,
    createdAt: Option<int>)

  /** Reading `.filter` or `.map` of a missing season list throws. */
  datatype Fault = MissingSeasons

  /** `resetForm`: an empty movie form in the given year, rated 8, with an
      empty season list. */
  function EmptyDraft(year: int): (d: Draft)
    ensures d.id.None? && d.createdAt.None? && d.title == "" && d.kind == Movie
    ensures d.year == year && d.rating == 8.0 && d.seasons == Some([])
  {
    Draft(None, "", Movie, "", Some(""), Some(""), Some([]), "", year, "", 8.0, None)
  }

  /** `handleEdit`: the form becomes a field-for-field copy of the entry. */
  function EditDraft(m: Media): (d: Draft)
    ensures d.id == Some(m.id) && d.createdAt == Some(m.createdAt)
    ensures d.seasons == m.seasons && d.videoUrl == m.videoUrl && d.kind == m.kind
    ensures d.title == m.title && d.thumbnailUrl == m.thumbnailUrl && d.backdropUrl == m.backdropUrl
    ensures d.description == m.description && d.year == m.year && d.genre == m.genre
    ensures d.rating == m.rating
  {
    Draft(Some(m.id), m.title, m.kind, m.thumbnailUrl, m.backdropUrl, m.videoUrl, m.seasons,
          m.description, m.year, m.genre, m.rating, Some(m.createdAt))
  }

  /** `handleSubmit`'s clean-up: a movie loses its season list and a series
      its video URL; every other field is kept. */
  function Submit(d: Draft): (r: Draft)
    ensures d.kind == Movie ==> r.seasons.None? && r.videoUrl == d.videoUrl
    ensures d.kind == Series ==> r.videoUrl.None? && r.seasons == d.seasons
    ensures r.(videoUrl := d.videoUrl, seasons := d.seasons) == d
  {
    if d.kind == Movie then d.(seasons := None) else d.(videoUrl := None)
  }

  /** A draft carries at most the field that belongs to its kind. */
  predicate KindClean(d: Draft) {
    (d.kind == Movie ==> d.seasons.None?) && (d.kind == Series ==> d.videoUrl.None?)
  }

  /** Submitting yields a clean draft and submitting a clean draft changes
      nothing, so the clean-up is idempotent. */
  lemma SubmitCleans(d: Draft)
    ensures KindClean(Submit(d))
    ensures KindClean(d) ==> Submit(d) == d
    ensures Submit(Submit(d)) == Submit(d)
  {
  }

  /** The edit form loses nothing: two entries with the same form are the
      same entry, and submitting the form of an entry that already carries
      only its own kind's field saves that entry unchanged. */
  lemma EditThenSubmit(m: Media, n: Media)
    ensures EditDraft(m) == EditDraft(n) ==> m == n
    ensures (m.kind == Movie ==> m.seasons.None?) && (m.kind == Series ==> m.videoUrl.None?)
      ==> Submit(EditDraft(m)) == EditDraft(m)
  {
  }

  /** A reset form asks the metadata service nothing, and its first added
      season is numbered 1. */
  lemma ResetForm(year: int, later: Draft, answer: Option<Enhanced>, freshId: string)
    ensures AutoEnhance(EmptyDraft(year), later, answer) == later
    ensures AddSeason(EmptyDraft(year), freshId).seasons == Some([Season(freshId, 1, [])])
  {
  }

  /** `handleAddSeason`: appends one empty season numbered one past the
      current count, creating the list when it is missing. */
  function AddSeason(d: Draft, freshId: string): (r: Draft)
    ensures r.seasons.Some?
    ensures var before := d.seasons.GetOr([]);
      |r.seasons.value| == |before| + 1 && r.seasons.value[..|before|] == before
      && r.seasons.value[|before|] == Season(freshId, |before| + 1, [])
    ensures r == d.(seasons := r.seasons)
  {
    var before := d.seasons.GetOr([]);
    d.(seasons := Some(before + [Season(freshId, |before| + 1, [])]))
  }

  /** `removeSeason`: keeps, in order, every season whose id differs. */
  function RemoveSeason(d: Draft, seasonId: string): (r: Result<Draft, Fault>)
    ensures d.seasons.None? <==> r.Err?
    ensures r.Ok? ==> r.value == d.(seasons := r.value.seasons) && r.value.seasons.Some?
    ensures r.Ok? ==> forall x :: x in r.value.seasons.value <==> x in d.seasons.value && x.id != seasonId
    ensures r.Ok? ==> Seqs.IsSubsequence(r.value.seasons.value, d.seasons.value)
    ensures r.Ok? ==>
      forall x :: multiset(r.value.seasons.value)[x] == if x.id != seasonId then multiset(d.seasons.value)[x] else 0
  {
    match d.seasons
    case None => Err(MissingSeasons)
    case Some(ss) => Ok(d.(seasons := Some(Seqs.Filter(ss, (s: Season) => s.id != seasonId))))
  }

  /** Applies `f` to every season with the given id and leaves the others. */
  function MapSeason(ss: seq<Season>, seasonId: string, f: Season -> Season): (r: seq<Season>)
    ensures |r| == |ss|
    ensures forall i :: 0 <= i < |ss| ==> r[i] == if ss[i].id == seasonId then f(ss[i]) else ss[i]
  {
    seq(|ss|, i requires 0 <= i < |ss| => if ss[i].id == seasonId then f(ss[i]) else ss[i])
  }

  /** The episode `handleAddEpisode` creates at position `order`. */
  function NewEpisode(id: string, order: nat): Episode {
    Episode(id, "Episode " + NatToString(order), "", order, Some("45m"), None)
  }

  function AppendEpisode(s: Season, freshId: string): Season {
    s.(episodes := s.episodes + [NewEpisode(freshId, |s.episodes| + 1)])
  }

  /** `handleAddEpisode`: every season with the id gains one episode at its
      end, numbered one past its count; every other season is unchanged. */
  function AddEpisode(d: Draft, seasonId: string, freshId: string): (r: Result<Draft, Fault>)
    ensures d.seasons.None? <==> r.Err?
    ensures r.Ok? ==> r.value == d.(seasons := r.value.seasons) && r.value.seasons.Some?
    ensures r.Ok? ==> var before := d.seasons.value; var now := r.value.seasons.value;
      |now| == |before| &&
      forall i :: 0 <= i < |before| ==>
        if before[i].id == seasonId then
          now[i].id == before[i].id && now[i].seasonNumber == before[i].seasonNumber
          && |now[i].episodes| == |before[i].episodes| + 1
          && now[i].episodes[..|before[i].episodes|] == before[i].episodes
          && now[i].episodes[|before[i].episodes|] == NewEpisode(freshId, |before[i].episodes| + 1)
        else now[i] == before[i]
  {
    match d.seasons
    case None => Err(MissingSeasons)
    case Some(ss) =>
      var now := MapSeason(ss, seasonId, (s: Season) => AppendEpisode(s, freshId));
      assert forall i :: 0 <= i < |ss| && ss[i].id == seasonId ==>
        now[i].episodes[..|ss[i].episodes|] == ss[i].episodes;
      Ok(d.(seasons := Some(now)))
  }

  /** The created episode's title is "Episode " followed by the decimal
      digits of its order, with an empty URL and a 45-minute duration. */
  lemma NewEpisodeShape(id: string, order: nat)
    ensures var e := NewEpisode(id, order);
      e.title[..8] == "Episode " && AllDigits(e.title[8..]) && DigitsValue(e.title[8..]) == order
      && e.videoUrl == "" && e.duration == Some("45m") && e.order == order
  {
    NatToStringValue(order);
    var e := NewEpisode(id, order);
    assert e.title[8..] == NatToString(order);
  }

  /** `removeEpisode`: the target seasons keep, in order, the episodes whose
      id differs; every other season is unchanged. */
  function RemoveEpisode(d: Draft, seasonId: string, episodeId: string): (r: Result<Draft, Fault>)
    ensures d.seasons.None? <==> r.Err?
    ensures r.Ok? ==> r.value == d.(seasons := r.value.seasons) && r.value.seasons.Some?
    ensures r.Ok? ==> var before := d.seasons.value; var now := r.value.seasons.value;
      |now| == |before| &&
      forall i :: 0 <= i < |before| ==>
        if before[i].id == seasonId then
          now[i].id == before[i].id && now[i].seasonNumber == before[i].seasonNumber
          && Seqs.IsSubsequence(now[i].episodes, before[i].episodes)
          && (forall e :: e in now[i].episodes <==> e in before[i].episodes && e.id != episodeId)
          && (forall e :: multiset(now[i].episodes)[e] ==
                if e.id != episodeId then multiset(before[i].episodes)[e] else 0)
        else now[i] == before[i]
  {
    match d.seasons
    case None => Err(MissingSeasons)
    case Some(ss) =>
      var drop := (s: Season) => s.(episodes := Seqs.Filter(s.episodes, (e: Episode) => e.id != episodeId));
      Ok(d.(seasons := Some(MapSeason(ss, seasonId, drop))))
  }

  /** The two episode fields the form edits in place. */
  datatype EpisodeEdit = SetTitle(title: string) | SetVideoUrl(url: string)

  function ApplyEdit(e: Episode, edit: EpisodeEdit): (r: Episode)
    ensures edit.SetTitle? ==> r == e.(title := edit.title)
    ensures edit.SetVideoUrl? ==> r == e.(videoUrl := edit.url)
  {
    match edit
    case SetTitle(t) => e.(title := t)
    case SetVideoUrl(u) => e.(videoUrl := u)
  }

  function EditEpisodes(eps: seq<Episode>, episodeId: string, edit: EpisodeEdit): (r: seq<Episode>)
    ensures |r| == |eps|
    ensures forall j :: 0 <= j < |eps| ==> r[j] == if eps[j].id == episodeId then ApplyEdit(eps[j], edit) else eps[j]
  {
    seq(|eps|, j requires 0 <= j < |eps| => if eps[j].id == episodeId then ApplyEdit(eps[j], edit) else eps[j])
  }

  /** `updateEpisode`: in the target seasons, the episodes with the id get
      the one edited field; no season or episode is added or removed. */
  function UpdateEpisode(d: Draft, seasonId: string, episodeId: string, edit: EpisodeEdit): (r: Result<Draft, Fault>)
    ensures d.seasons.None? <==> r.Err?
    ensures r.Ok? ==> r.value == d.(seasons := r.value.seasons) && r.value.seasons.Some?
    ensures r.Ok? ==> var before := d.seasons.value; var now := r.value.seasons.value;
      |now| == |before| &&
      forall i :: 0 <= i < |before| ==>
        now[i].id == before[i].id && now[i].seasonNumber == before[i].seasonNumber
        && |now[i].episodes| == |before[i].episodes|
        && forall j :: 0 <= j < |before[i].episodes| ==>
             now[i].episodes[j] ==
               if before[i].id == seasonId && before[i].episodes[j].id == episodeId
               then ApplyEdit(before[i].episodes[j], edit) else before[i].episodes[j]
  {
    match d.seasons
    case None => Err(MissingSeasons)
    case Some(ss) =>
      var change := (s: Season) => s.(episodes := EditEpisodes(s.episodes, episodeId, edit));
      Ok(d.(seasons := Some(MapSeason(ss, seasonId, change))))
  }

  /** The structured answer of the metadata service. Only `posterUrl` and
      `backdropUrl` are optional in its schema. */
  datatype Enhanced = Enhanced(
    title: string,
    description: string,
    genre: string,
    rating: real,
    year: int,
    posterUrl: Option<string>,
    backdropUrl: Option<string>)

  /** `a || b` on strings: an empty string is falsy. */
  function OrString(a: string, b: string): string {
    if a != "" then a else b
  }

  /** `a || b` on an optional string: missing and empty are falsy. */
  function OrOptString(a: Option<string>, b: Option<string>): Option<string> {
    if a.Some? && a.value != "" then a else b
  }

  /** The functional update `autoEnhance` hands to `setFormData`: each of the
      seven fields becomes `answer || prev`, and nothing else changes. */
  function Merge(prev: Draft, e: Enhanced): (r: Draft)
    ensures e.title != "" ==> r.title == e.title
    ensures e.title == "" ==> r.title == prev.title
    ensures e.description != "" ==> r.description == e.description
    ensures e.description == "" ==> r.description == prev.description
    ensures e.genre != "" ==> r.genre == e.genre
    ensures e.genre == "" ==> r.genre == prev.genre
    ensures e.rating != 0.0 ==> r.rating == e.rating
    ensures e.rating == 0.0 ==> r.rating == prev.rating
    ensures e.year != 0 ==> r.year == e.year
    ensures e.year == 0 ==> r.year == prev.year
    ensures e.posterUrl.Some? && e.posterUrl.value != "" ==> r.thumbnailUrl == e.posterUrl.value
    ensures e.posterUrl.None? || e.posterUrl.value == "" ==> r.thumbnailUrl == prev.thumbnailUrl
    ensures e.backdropUrl.Some? && e.backdropUrl.value != "" ==> r.backdropUrl == e.backdropUrl
    ensures e.backdropUrl.None? || e.backdropUrl.value == "" ==> r.backdropUrl == prev.backdropUrl
    ensures r == prev.(title := r.title, description := r.description, genre := r.genre,
                       rating := r.rating, year := r.year, thumbnailUrl := r.thumbnailUrl,
                       backdropUrl := r.backdropUrl)
  {
    prev.(title := OrString(e.title, prev.title),
          description := OrString(e.description, prev.description),
          genre := OrString(e.genre, prev.genre),
          rating := if e.rating != 0.0 then e.rating else prev.rating,
          year := if e.year != 0 then e.year else prev.year,
          thumbnailUrl := if e.posterUrl.Some? && e.posterUrl.value != "" then e.posterUrl.value else prev.thumbnailUrl,
          backdropUrl := OrOptString(e.backdropUrl, prev.backdropUrl))
  }

  /** `autoEnhance`: the title is checked on the form as it is at the click
      (`atClick`); when there is none nothing is asked and the form stays as
      it is. The answer arrives later and is merged into the form as it is
      then (`atAnswer`); without an answer that form stays. */
  function AutoEnhance(atClick: Draft, atAnswer: Draft, answer: Option<Enhanced>): (r: Draft)
    ensures atClick.title == "" || answer.None? ==> r == atAnswer
    ensures atClick.title != "" && answer.Some? ==> r == Merge(atAnswer, answer.value)
    ensures r.id == atAnswer.id && r.kind == atAnswer.kind && r.videoUrl == atAnswer.videoUrl
      && r.seasons == atAnswer.seasons && r.createdAt == atAnswer.createdAt
  {
    if atClick.title == "" then atAnswer
    else match answer
      case None => atAnswer
      case Some(e) => Merge(atAnswer, e)
  }

  /** A title cleared while the request is in flight does not stop the merge:
      only the title at the click decides, and an empty answer title then
      leaves the cleared title in place. */
  lemma EnhanceAfterClearedTitle(atClick: Draft, atAnswer: Draft, e: Enhanced)
    requires atClick.title != "" && atAnswer.title == ""
    ensures AutoEnhance(atClick, atAnswer, Some(e)) == Merge(atAnswer, e)
    ensures e.title == "" ==> AutoEnhance(atClick, atAnswer, Some(e)).title == ""
  {
  }

  /** An answer whose fields are all falsy leaves the draft as it was. */
  lemma EnhanceWithNothing(d: Draft)
    ensures Merge(d, Enhanced("", "", "", 0.0, 0, None, None)) == d
  {
  }

  /** Applying the same answer twice is the same as applying it once. */
  lemma EnhanceIdempotent(d: Draft, e: Enhanced)
    ensures Merge(Merge(d, e), e) == Merge(d, e)
  {
  }

  /** A complete answer overwrites all seven fields. */
  lemma EnhanceComplete(d: Draft, e: Enhanced)
    requires e.title != "" && e.description != "" && e.genre != "" && e.rating != 0.0 && e.year != 0
    requires e.posterUrl.Some? && e.posterUrl.value != "" && e.backdropUrl.Some? && e.backdropUrl.value != ""
    ensures var r := Merge(d, e);
      r.title == e.title && r.description == e.description && r.genre == e.genre
      && r.rating == e.rating && r.year == e.year
      && r.thumbnailUrl == e.posterUrl.value && r.backdropUrl == e.backdropUrl
  {
  }

  /** `Partial<AppSettings>`: each field may be absent. */
  datatype SettingsPatch = SettingsPatch(isMaintenanceMode: Option<bool>)

  /** `updateAppSettings`: the spread `{...settings, ...patch}`, where the
      patch's present fields win. */
  function UpdateSettings(cur: AppSettings, patch: SettingsPatch): (r: AppSettings)
    ensures patch.isMaintenanceMode.Some? ==> r.isMaintenanceMode == patch.isMaintenanceMode.value
    ensures patch.isMaintenanceMode.None? ==> r == cur
  {
    AppSettings(patch.isMaintenanceMode.GetOr(cur.isMaintenanceMode))
  }

  /** Combines two patches, the later one winning field by field. */
  function Then(p: SettingsPatch, q: SettingsPatch): SettingsPatch {
    SettingsPatch(if q.isMaintenanceMode.Some? then q.isMaintenanceMode else p.isMaintenanceMode)
  }

  /** Two updates in a row are one update with the combined patch, and an
      empty patch changes nothing. */
  lemma UpdateSettingsCompose(cur: AppSettings, p: SettingsPatch, q: SettingsPatch)
    ensures UpdateSettings(UpdateSettings(cur, p), q) == UpdateSettings(cur, Then(p, q))
    ensures UpdateSettings(cur, SettingsPatch(None)) == cur
  {
  }

  /** The maintenance switch flips the flag; flipping twice restores it. */
  lemma MaintenanceSwitch(cur: AppSettings)
    ensures UpdateSettings(cur, SettingsPatch(Some(!cur.isMaintenanceMode))).isMaintenanceMode == !cur.isMaintenanceMode
    ensures var once := UpdateSettings(cur, SettingsPatch(Some(!cur.isMaintenanceMode)));
      UpdateSettings(once, SettingsPatch(Some(!once.isMaintenanceMode))) == cur
  {
  }

  /** The search box's test: the lower-cased term occurs in the lower-cased
      title, type name or genre. */
  predicate Matches(m: Media, term: string) {
    MatchesLower(m, ToLower(term))
  }

  predicate MatchesLower(m: Media, t: string) {
    Contains(ToLower(m.title), t) || Contains(ToLower(TypeName(m.kind)), t) || Contains(ToLower(m.genre), t)
  }

  /** `filteredMedia`: the matching entries, in list order. */
  function FilteredMedia(media: seq<Media>, term: string): (r: seq<Media>)
    ensures Seqs.IsSubsequence(r, media)
    ensures forall m :: m in r <==> m in media && Matches(m, term)
    ensures forall m :: multiset(r)[m] == if Matches(m, term) then multiset(media)[m] else 0
  {
    var t := ToLower(term);
    Seqs.Filter(media, (m: Media) => MatchesLower(m, t))
  }

  /** An empty search term keeps the whole list. */
  lemma {:induction false} EmptyTermKeepsAll(media: seq<Media>)
    ensures FilteredMedia(media, "") == media
  {
    forall i | 0 <= i < |media|
      ensures Matches(media[i], "")
    {
      ContainsEmpty(ToLower(media[i].title));
    }
    Seqs.FilterKeepsAll(media, (m: Media) => MatchesLower(m, ToLower("")));
  }

  /** Terms that differ only in letter case select the same entries. */
  lemma SearchIgnoresCase(media: seq<Media>, a: string, b: string)
    requires ToLower(a) == ToLower(b)
    ensures FilteredMedia(media, a) == FilteredMedia(media, b)
  {
  }
}

=== FILE: catalog.dfy ===
/** The catalog records: a media item is a movie or a series, and a series
    owns an ordered list of seasons, each with an ordered list of episodes. */
module Catalog {
  import opened Wrappers

  datatype ContentType = Movie | Series

  /** The `type` tag as the catalog spells it. */
  function TypeName(t: ContentType): string {
    match t
    case Movie => "movie"
    case Series => "series"
  }

  /** One episode. `order` is the producer's 1-based number; the navigation
      code never reads it and works on array positions instead. */
  datatype Episode = Episode(
    id: string,
    title: string,
    videoUrl: string,
    order: int,
    duration: Option<string>,
    description: Option<string>)

  datatype Season = Season(id: string, seasonNumber: int, episodes: seq<Episode>)

  /** A catalog entry. `videoUrl` is meant for movies and `seasons` for
      series; both are optional, so either may be absent on either kind. */
  datatype Media = Media(
    id: string,
    title: string,
    kind: ContentType,
    thumbnailUrl: string,
    backdropUrl: Option<string>,
    videoUrl: Option<string>,
    seasons: Option<seq<Season>>,
    description: string,
    year: int,
    genre: string,
    rating: real,
    createdAt: int)

  datatype AppSettings = AppSettings(isMaintenanceMode: bool)

  /** Some episode of the season carries the given id. */
  predicate HasEpisode(s: Season, id: string) {
    exists i :: 0 <= i < |s.episodes| && s.episodes[i].id == id
  }
}

=== FILE: details.dfy ===
/** The details dialog: which season it opens on, the episode rows with
    their numbers and watched state, and the header's fade-in ratio. */
module Details {
  import opened Wrappers
  import opened Catalog
  import Store = ProgressStore
  import Watch

  /** Scrolling distance, in pixels, over which the header becomes opaque. */
  const FadeDistance: real := 400.0

  /** The season the dialog opens on: the first one of a series that has
      seasons, and none otherwise. */
  function InitialSeason(m: Media): (r: Option<Season>)
    ensures r.Some? <==> m.kind == Series && m.seasons.Some? && |m.seasons.value| > 0
    ensures r.Some? ==> r.value == m.seasons.value[0]
  {
    if m.kind == Series && m.seasons.Some? && |m.seasons.value| > 0 then Some(m.seasons.value[0]) else None
  }

  /** `handleScroll`: the scroll offset over the fade distance, capped at 1. */
  function ScrollRatio(scrollTop: real): (r: real)
    ensures r <= 1.0
    ensures scrollTop <= FadeDistance ==> r * FadeDistance == scrollTop
    ensures scrollTop >= FadeDistance ==> r == 1.0
    ensures 0.0 <= scrollTop ==> 0.0 <= r
  {
    var x := scrollTop / FadeDistance;
    if x < 1.0 then x else 1.0
  }

  /** The title in the header shows once the ratio passes one half, that
      is, past 200 pixels of scrolling. */
  lemma HeaderTitleShown(scrollTop: real)
    ensures ScrollRatio(scrollTop) > 0.5 <==> scrollTop > 200.0
  {
  }

  /** One row of the episode list. */
  datatype EpisodeRow = EpisodeRow(number: nat, title: string, progress: int, completed: bool, target: string)

  /** The watch route every episode row leads to: the item's, never the
      episode's. */
  function WatchRoute(m: Media): string {
    "/watch/" + m.id
  }

  function RowFor(m: Media, e: Episode, index: nat, store: Store.Storage): EpisodeRow {
    var p := Store.GetWatchedProgress(store, e.id);
    EpisodeRow(index + 1, e.title, p, p >= 100, WatchRoute(m))
  }

  /** The rows under the selected season: position + 1 as the number, the
      stored progress as the bar width, completed at 100 or more. */
  function EpisodeRows(m: Media, selected: Option<Season>, store: Store.Storage): (rows: seq<EpisodeRow>)
    ensures selected.None? ==> rows == []
    ensures selected.Some? ==> |rows| == |selected.value.episodes|
    ensures selected.Some? ==> forall i :: 0 <= i < |rows| ==>
      var e := selected.value.episodes[i];
      rows[i].number == i + 1 && rows[i].title == e.title
      && rows[i].progress == Store.GetWatchedProgress(store, e.id)
      && (rows[i].completed <==> Store.GetWatchedProgress(store, e.id) >= 100)
      && rows[i].target == WatchRoute(m)
  {
    match selected
    case None => []
    case Some(s) =>
      seq(|s.episodes|, i requires 0 <= i < |s.episodes| => RowFor(m, s.episodes[i], i, store))
  }

  /** The episode section is rendered only for a series with a season list. */
  predicate EpisodeSectionShown(m: Media) {
    m.kind == Series && m.seasons.Some?
  }

  /** The dialog opens on the season the watch page starts on for the same
      series, lists episodes only when its episode section is rendered, and
      lists none for a movie or a series without a season list. */
  lemma OpensOnWatchSeason(s: Watch.Session, catalog: seq<Media>, k: nat, store: Store.Storage)
    requires k < |catalog| && catalog[k].id != ""
    requires forall j :: 0 <= j < k ==> catalog[j].id != catalog[k].id
    ensures var m := catalog[k];
      m.kind == Series && m.seasons.Some? && |m.seasons.value| > 0 ==>
        Watch.Load(s, m.id, catalog).season == InitialSeason(m)
    ensures InitialSeason(catalog[k]).Some? ==> EpisodeSectionShown(catalog[k])
    ensures !EpisodeSectionShown(catalog[k]) ==> EpisodeRows(catalog[k], InitialSeason(catalog[k]), store) == []
  {
    var m := catalog[k];
    if m.kind == Series && m.seasons.Some? && |m.seasons.value| > 0 {
      Watch.LoadSeries(s, catalog, k);
    }
  }

  /** A selection the dialog can hold: none, or one of the item's seasons. */
  predicate Listed(m: Media, selected: Option<Season>) {
    selected.None? || (m.seasons.Some? && selected.value in m.seasons.value)
  }

  /** A tab is highlighted when its season's id is the selected one's. */
  predicate TabActive(selected: Option<Season>, s: Season) {
    selected.Some? && selected.value.id == s.id
  }

  /** A season tab: the section renders one tab per entry of the item's
      season list, and clicking the `k`-th selects that season. */
  function SelectSeason(m: Media, k: nat): (r: Option<Season>)
    requires m.seasons.Some? && k < |m.seasons.value|
    ensures Listed(m, r) && TabActive(r, m.seasons.value[k])
    ensures r.Some? && r.value == m.seasons.value[k]
  {
    Some(m.seasons.value[k])
  }

  /** The dialog only ever selects one of the item's seasons, whether on
      opening or by a tab, and after a tab click it lists exactly that
      season's episodes, in order. */
  lemma SelectionStaysListed(m: Media, k: nat, store: Store.Storage)
    requires m.seasons.Some? && k < |m.seasons.value|
    ensures Listed(m, InitialSeason(m))
    ensures var rows, eps := EpisodeRows(m, SelectSeason(m, k), store), m.seasons.value[k].episodes;
      |rows| == |eps| && forall i :: 0 <= i < |rows| ==> rows[i].title == eps[i].title
  {
  }

  /** Numbers depend only on positions: renumbering the producer's `order`
      fields leaves the rows unchanged. */
  lemma NumbersIgnoreOrder(m: Media, s: Season, t: Season, store: Store.Storage)
    requires |s.episodes| == |t.episodes|
    requires forall i :: 0 <= i < |s.episodes| ==> s.episodes[i] == t.episodes[i].(order := s.episodes[i].order)
    ensures EpisodeRows(m, Some(s), store) == EpisodeRows(m, Some(t), store)
  {
  }

  /** A fresh store shows nothing as watched. */
  lemma FreshStoreNothingCompleted(m: Media, s: Season)
    ensures forall r :: r in EpisodeRows(m, Some(s), Store.Storage(true, true, Store.Absent)) ==> !r.completed && r.progress == 0
  {
  }

  /** After the watch page has moved its cursor to an episode, the details
      dialog lists that episode as completed with a full bar. */
  lemma WatchedEpisodeCompleted(s: Watch.Session, e: Episode, m: Media, season: Season, i: nat)
    requires Watch.Marked(s) && Store.Healthy(s.store)
    requires i < |season.episodes| && season.episodes[i] == e
    ensures var rows := EpisodeRows(m, Some(season), Watch.ChangeEpisode(s, e).store);
      rows[i].completed && rows[i].progress == 100
  {
  }

  /** Along any navigation on the watch page, the episode the cursor rests
      on is listed as completed. */
  lemma CurrentEpisodeCompleted(start: Watch.Session, es: seq<Watch.Event>, m: Media, season: Season, i: nat)
    requires Watch.Marked(start)
    requires var s := Watch.Run(start, es);
      Store.Healthy(s.store) && s.episode.Some? && i < |season.episodes| && season.episodes[i] == s.episode.value
    ensures EpisodeRows(m, Some(season), Watch.Run(start, es).store)[i].completed
  {
    Watch.RunKeepsMarked(start, es);
  }
}

=== FILE: home.dfy ===
/** The browsing page: the saved "My List", the category filters, the search
    box, the featured entry, the maintenance gate and the page heading. */
module Home {
  import opened Wrappers
  import opened Text
  import opened Catalog
  import Seqs

  /** The page's state once the catalog, the saved list and the settings
      have been read. `shown` is the grid's content outside the home view. */
  datatype Page = Page(
    all: seq<Media>,
    shown: seq<Media>,
    featured: Option<Media>,
    filter: string,
    query: string,
    myList: seq<string>,
    settings: AppSettings,
    isAdmin: bool)

  /** The mount effect: the whole catalog is shown, the first entry is
      featured when there is one, and the saved list is restored. */
  function Mount(data: seq<Media>, saved: Option<seq<string>>, settings: AppSettings, isAdmin: bool): (p: Page)
    ensures p.all == data && p.shown == data && p.filter == "home" && p.query == ""
    ensures p.featured.Some? <==> |data| > 0
    ensures p.featured.Some? ==> p.featured.value == data[0]
    ensures p.myList == saved.GetOr([])
  {
    Page(data, data, if |data| > 0 then Some(data[0]) else None, "home", "", saved.GetOr([]), settings, isAdmin)
  }

  /** `toggleMyList`: a listed id leaves the list entirely, keeping the
      others in order; an unlisted id is appended. */
  function ToggleMyList(list: seq<string>, id: string): (r: seq<string>)
    ensures id in r <==> id !in list
    ensures forall x :: x != id ==> (x in r <==> x in list)
    ensures id in list ==> Seqs.IsSubsequence(r, list)
    ensures id in list ==> forall x :: multiset(r)[x] == if x != id then multiset(list)[x] else 0
    ensures id !in list ==> r == list + [id]
  {
    if id in list then Seqs.Filter(list, (x: string) => x != id) else list + [id]
  }

  /** Adding an id and toggling it again restores the list. */
  lemma ToggleTwice(list: seq<string>, id: string)
    requires id !in list
    ensures ToggleMyList(ToggleMyList(list, id), id) == list
  {
    var added := list + [id];
    var p := (x: string) => x != id;
    assert Seqs.Filter(added, p) == Seqs.Filter(list, p) + Seqs.Filter([id], p) by {
      FilterAppend(list, [id], p);
    }
    Seqs.FilterKeepsAll(list, p);
    assert Seqs.Filter([id], p) == [];
  }

  lemma {:induction false} FilterAppend<T(!new)>(a: seq<T>, b: seq<T>, p: T -> bool)
    ensures Seqs.Filter(a + b, p) == Seqs.Filter(a, p) + Seqs.Filter(b, p)
  {
    if a != [] {
      var ab := a + b;
      assert ab[0] == a[0] && ab[1..] == a[1..] + b;
      FilterAppend(a[1..], b, p);
      var head := if p(a[0]) then [a[0]] else [];
      assert Seqs.Filter(a, p) == head + Seqs.Filter(a[1..], p);
      assert Seqs.Filter(ab, p) == head + Seqs.Filter(ab[1..], p);
    } else {
      assert a + b == b;
    }
  }

  /** The "My List" slot of local storage: nothing under the key, the text
      `JSON.stringify` wrote for a list of ids, or any other text. */
  datatype ListSlot = NoList | ListJson(ids: seq<string>) | OtherText(text: string)

  /** Reading the slot back throws. */
  datatype ListFault = UnparsableList

  /** What `toggleMyList` writes: the new list as JSON. */
  function SaveList(list: seq<string>): (slot: ListSlot)
    ensures slot.ListJson? && slot.ids == list
  {
    ListJson(list)
  }

  /** The mount effect's read: a missing or empty text restores nothing, a
      written list restores that list, and any other text makes `JSON.parse`
      throw. */
  function RestoreList(slot: ListSlot): (r: Result<Option<seq<string>>, ListFault>)
    ensures r.Ok? && r.value.Some? <==> slot.ListJson?
    ensures r.Ok? && r.value.Some? ==> r.value.value == slot.ids
    ensures r.Err? <==> slot.OtherText? && slot.text != ""
  {
    match slot
    case NoList => Ok(None)
    case ListJson(ids) => Ok(Some(ids))
    case OtherText(t) => if t == "" then Ok(None) else Err(UnparsableList)
  }

  /** Mounting from storage: the read fault propagates, otherwise `Mount`
      on the restored list. */
  function MountFromSlot(data: seq<Media>, slot: ListSlot, settings: AppSettings, isAdmin: bool): (r: Result<Page, ListFault>)
    ensures r.Err? <==> RestoreList(slot).Err?
    ensures r.Ok? ==> r.value == Mount(data, RestoreList(slot).value, settings, isAdmin)
  {
    match RestoreList(slot)
    case Err(f) => Err(f)
    case Ok(saved) => Ok(Mount(data, saved, settings, isAdmin))
  }

  /** The page's toggle: the list in state changes and the new list is
      written to the slot. */
  function ToggleOnPage(p: Page, id: string): (r: (Page, ListSlot))
    ensures r.0 == p.(myList := ToggleMyList(p.myList, id))
    ensures RestoreList(r.1) == Ok(Some(r.0.myList))
  {
    var list := ToggleMyList(p.myList, id);
    (p.(myList := list), SaveList(list))
  }

  /** A toggle survives a reload: mounting from the slot it wrote restores
      exactly the toggled list, and a page that never saved a list starts
      empty. */
  lemma ToggleSurvivesReload(p: Page, id: string, data: seq<Media>, settings: AppSettings, isAdmin: bool)
    ensures var (q, slot) := ToggleOnPage(p, id);
      MountFromSlot(data, slot, settings, isAdmin).Ok?
      && MountFromSlot(data, slot, settings, isAdmin).value.myList == q.myList
    ensures MountFromSlot(data, NoList, settings, isAdmin).Ok?
      && MountFromSlot(data, NoList, settings, isAdmin).value.myList == []
  {
  }

  function KindOf(filter: string): Option<ContentType> {
    if filter == "series" then Some(Series) else if filter == "movie" then Some(Movie) else None
  }

  function CreatedAt(m: Media): int {
    m.createdAt
  }

  /** The entries of one type, in catalog order. */
  function OfKind(all: seq<Media>, k: ContentType): (r: seq<Media>)
    ensures Seqs.IsSubsequence(r, all)
    ensures forall m :: m in r <==> m in all && m.kind == k
    ensures forall m :: multiset(r)[m] == if m.kind == k then multiset(all)[m] else 0
  {
    Seqs.Filter(all, (m: Media) => m.kind == k)
  }

  /** The entries whose id is listed, in catalog order. */
  function InList(all: seq<Media>, ids: seq<string>): (r: seq<Media>)
    ensures Seqs.IsSubsequence(r, all)
    ensures forall m :: m in r <==> m in all && m.id in ids
    ensures forall m :: multiset(r)[m] == if m.id in ids then multiset(all)[m] else 0
  {
    Seqs.Filter(all, (m: Media) => m.id in ids)
  }

  /** `handleFilterChange`: records the filter and clears the query; "home"
      shows the catalog, "series"/"movie" the entries of that type in order,
      "new" the catalog newest first, "mylist" the listed entries in
      catalog order. Any other filter leaves the grid as it was. */
  function FilterChange(p: Page, filter: string): (r: Page)
    ensures r.filter == filter && r.query == ""
    ensures r.all == p.all && r.featured == p.featured && r.myList == p.myList
    ensures filter == "home" ==> r.shown == p.all
    ensures KindOf(filter).Some? ==>
      Seqs.IsSubsequence(r.shown, p.all) && forall m :: m in r.shown <==> m in p.all && m.kind == KindOf(filter).value
    ensures KindOf(filter).Some? ==>
      forall m :: multiset(r.shown)[m] == if m.kind == KindOf(filter).value then multiset(p.all)[m] else 0
    ensures filter == "new" ==>
      Seqs.SortedDesc(r.shown, CreatedAt) && multiset(r.shown) == multiset(p.all)
    ensures filter == "mylist" ==>
      Seqs.IsSubsequence(r.shown, p.all) && forall m :: m in r.shown <==> m in p.all && m.id in p.myList
    ensures filter == "mylist" ==>
      forall m :: multiset(r.shown)[m] == if m.id in p.myList then multiset(p.all)[m] else 0
    ensures filter !in {"home", "series", "movie", "new", "mylist"} ==> r.shown == p.shown
  {
    var q := p.(filter := filter, query := "");
    if filter == "home" then q.(shown := p.all)
    else if filter == "series" || filter == "movie" then
      q.(shown := OfKind(p.all, KindOf(filter).value))
    else if filter == "new" then q.(shown := Seqs.SortDesc(p.all, CreatedAt))
    else if filter == "mylist" then
      q.(shown := InList(p.all, p.myList))
    else q
  }

  /** The search box's test: the lower-cased query occurs in the lower-cased
      title or genre. */
  predicate SearchHit(m: Media, lowered: string) {
    Contains(ToLower(m.title), lowered) || Contains(ToLower(m.genre), lowered)
  }

  /** `handleSearch`: an empty query re-applies the active filter; any other
      query searches the whole catalog, whatever filter is active. */
  function Search(p: Page, query: string): (r: Page)
    ensures query == "" ==> r == FilterChange(p, p.filter)
    ensures query != "" ==> r.query == query && r.filter == p.filter && r.all == p.all && r.myList == p.myList
    ensures query != "" ==>
      Seqs.IsSubsequence(r.shown, p.all)
      && forall m :: m in r.shown <==> m in p.all && SearchHit(m, ToLower(query))
    ensures query != "" ==>
      forall m :: multiset(r.shown)[m] == if SearchHit(m, ToLower(query)) then multiset(p.all)[m] else 0
  {
    if query == "" then FilterChange(p.(query := query), p.filter)
    else
      var lowered := ToLower(query);
      p.(query := query, shown := Seqs.Filter(p.all, (m: Media) => SearchHit(m, lowered)))
  }

  /** A search result names the query inside the title, and a title always
      gains a hit when the query is one of its substrings. */
  lemma SearchFindsTitle(p: Page, query: string, k: nat)
    requires query != "" && k < |p.all|
    requires exists i :: OccursAt(ToLower(p.all[k].title), ToLower(query), i)
    ensures p.all[k] in Search(p, query).shown
  {
    ContainsIffOccurs(ToLower(p.all[k].title), ToLower(query));
  }

  /** Queries that differ only in letter case find the same entries. */
  lemma SearchIgnoresCase(p: Page, a: string, b: string)
    requires a != "" && b != "" && ToLower(a) == ToLower(b)
    ensures Search(p, a).shown == Search(p, b).shown
  {
  }

  datatype Row = Row(title: string, items: seq<Media>)

  /** What the page renders: the maintenance notice, the home rows with an
      optional hero entry, or a grid under an optional heading. */
  datatype Screen =
    | MaintenanceNotice
    | HomeRows(hero: Option<Media>, rows: seq<Row>)
    | Grid(heading: string, items: seq<Media>)

  /** `getPageTitle`: a query wins over every filter label; the home view
      and unknown filters have no heading. */
  function PageTitle(query: string, filter: string): (t: string)
    ensures query != "" ==> t == "Results for \"" + query + "\""
    ensures t == "" <==> query == "" && filter !in {"mylist", "movie", "series", "new"}
  {
    if query != "" then "Results for \"" + query + "\""
    else if filter == "mylist" then "My List"
    else if filter == "movie" then "Movies"
    else if filter == "series" then "TV Shows"
    else if filter == "new" then "New & Popular"
    else ""
  }

  /** The rendered page. Maintenance mode hides everything from anyone but
      the administrator; the home view with no query shows the hero and the
      three rows, where "Editor's Choice" is the first five entries; every
      other view shows the grid. */
  function Render(p: Page): (v: Screen)
    ensures v.MaintenanceNotice? <==> p.settings.isMaintenanceMode && !p.isAdmin
    ensures v.HomeRows? ==>
              p.filter == "home" && p.query == "" && v.hero == p.featured
              && |v.rows| == 3 && v.rows[0].items == Seqs.Take(p.all, 5)
              && |v.rows[0].items| <= 5 && (|p.all| >= 5 ==> |v.rows[0].items| == 5)
    ensures v.Grid? ==> v.items == p.shown && v.heading == PageTitle(p.query, p.filter)
  {
    if p.settings.isMaintenanceMode && !p.isAdmin then MaintenanceNotice
    else if p.filter == "home" && p.query == "" then
      HomeRows(p.featured, [
        Row("Editor's Choice", Seqs.Take(p.all, 5)),
        Row("Trending Series", Seqs.Filter(p.all, (m: Media) => m.kind == Series)),
        Row("Blockbuster Movies", Seqs.Filter(p.all, (m: Media) => m.kind == Movie))])
    else Grid(PageTitle(p.query, p.filter), p.shown)
  }

  /** Right after mounting, with a non-empty catalog and no maintenance
      block, the hero is the first catalog entry. */
  lemma FeaturedIsFirst(data: seq<Media>, saved: Option<seq<string>>, settings: AppSettings, isAdmin: bool)
    requires |data| > 0
    requires !settings.isMaintenanceMode || isAdmin
    ensures Render(Mount(data, saved, settings, isAdmin)).HomeRows?
    ensures Render(Mount(data, saved, settings, isAdmin)).hero == Some(data[0])
  {
  }

  /** A filter change never alters the featured entry, the catalog or the
      list, and "home" after any filter restores the full grid. */
  lemma HomeRestores(p: Page, f: string)
    ensures FilterChange(FilterChange(p, f), "home").shown == p.all
    ensures FilterChange(FilterChange(p, f), "home").featured == p.featured
  {
  }

  /** What the page's settings state holds. `getSettings` is asynchronous
      and the page stores its return value without awaiting it, so the state
      holds the promise, never the settings it resolves to. */
  datatype SettingsValue = Pending | Resolved(settings: AppSettings)

  function StoredByPage(resolvesTo: AppSettings): SettingsValue {
    Pending
  }

  /** The gate as written: the flag is read off the stored value, and a
      promise has no such property, so it reads as false. */
  function GateAsWritten(v: SettingsValue, isAdmin: bool): (blocked: bool)
    ensures blocked ==> v.Resolved? && v.settings.isMaintenanceMode && !isAdmin
    ensures v.Pending? ==> !blocked
  {
    v.Resolved? && v.settings.isMaintenanceMode && !isAdmin
  }

  /** With maintenance mode switched on, the gate as written does not show
      a visitor who is not the administrator the maintenance notice, while
      the page built on the resolved settings does. */
  lemma MaintenanceGateBypassed(settings: AppSettings, p: Page)
    requires settings.isMaintenanceMode && !p.isAdmin && p.settings == settings
    ensures !GateAsWritten(StoredByPage(settings), p.isAdmin)
    ensures Render(p).MaintenanceNotice?
  {
  }

  /** What the page's catalog state holds after mounting. `getMedia` is
      asynchronous and the page stores its return value without awaiting it,
      so the state holds the promise, never the entries it resolves to. */
  datatype CatalogValue = PendingCatalog | ResolvedCatalog(items: seq<Media>)

  function CatalogStoredByPage(resolvesTo: seq<Media>): CatalogValue {
    PendingCatalog
  }

  /** The first home row as written: `slice(0, 5)` on the stored value. A
      promise has no `slice`, so the call throws (`None`); on resolved
      entries it is their first five. */
  function EditorsChoiceAsWritten(v: CatalogValue): (r: Option<seq<Media>>)
    ensures r.None? <==> v.PendingCatalog?
    ensures v.ResolvedCatalog? ==> r.Some? && r.value == Seqs.Take(v.items, 5)
  {
    match v
    case PendingCatalog => None
    case ResolvedCatalog(items) => Some(Seqs.Take(items, 5))
  }

  /** Whatever the catalog resolves to, the home rows as written throw once
      the mount effect has stored the promise, while the page built on the
      resolved catalog shows its first five entries as Editor's Choice. */
  lemma HomeRowsCrash(data: seq<Media>, saved: Option<seq<string>>, settings: AppSettings, isAdmin: bool)
    requires !settings.isMaintenanceMode || isAdmin
    ensures EditorsChoiceAsWritten(CatalogStoredByPage(data)).None?
    ensures var v := Render(Mount(data, saved, settings, isAdmin));
      v.HomeRows? && v.rows[0].items == Seqs.Take(data, 5)
  {
  }
}

=== FILE: player.dfy ===
/** The custom video player's control surface (`VideoPlayer`): play/pause,
    seeking, volume and mute, the settings panel with its speed and quality
    menus, keyboard shortcuts and the auto-hide timer, as one state record
    changed by explicit events. The native media element and the browser's
    timer are represented by the fields and events they affect. */
module Player {
  import opened Wrappers
  import opened Text
  import TimeFormat

  /** The inactivity delay before the controls hide, in milliseconds. */
  const HideDelayMs: nat := 3000

  /** The entries of the speed menu. */
  const SpeedOptions: seq<real> := [0.5, 0.75, 1.0, 1.25, 1.5, 2.0]

  /** The entries of the quality menu; the choice is a label only. */
  const QualityOptions: seq<string> := ["4K Ultra", "Full HD", "720p", "Auto"]

  /** The skip distance of the arrow keys and the skip buttons, in seconds. */
  const SkipSeconds: real := 10.0

  type PosReal = r: real | r > 0.0 witness 1.0

  /** The element's `duration`: NaN until metadata has loaded. */
  datatype Duration = Unknown | Known(secs: PosReal)

  datatype Menu = Root | Speed | Quality

  /** Everything the control surface keeps. `paused`, `position`, `duration`
      and `fullscreen` belong to the media element and the document; the
      others are the component's own state. `hideAt` is the due time of the
      pending auto-hide timer, if one is armed. */
  datatype PlayerState = PlayerState(
    paused: bool,
    playing: bool,
    position: real,
    duration: Duration,
    shownTime: TimeFormat.Seconds,
    shownDuration: TimeFormat.Seconds,
    progress: real,
    volume: real,
    muted: bool,
    rate: real,
    quality: string,
    settingsOpen: bool,
    menu: Menu,
    controlsVisible: bool,
    hideAt: Option<nat>,
    fullscreen: bool)

  /** The state right after mounting: paused, half volume, normal speed,
      automatic quality, panel closed, controls shown, no timer armed. */
  const Initial: PlayerState := PlayerState(
    paused := true, playing := false, position := 0.0, duration := Unknown,
    shownTime := TimeFormat.Finite(0.0), shownDuration := TimeFormat.Finite(0.0),
    progress := 0.0, volume := 0.5, muted := false, rate := 1.0, quality := "Auto",
    settingsOpen := false, menu := Root, controlsVisible := true, hideAt := None,
    fullscreen := false)

  /** What can happen to the player. `TogglePlay` is the play button, the
      centre button and a click on the video; `ToggleFullscreen` is the
      fullscreen button and a double click; `OpenMenu(Root)` is a submenu's
      back button. `MediaPlay`/`MediaPause` are the element's own `play` and
      `pause` events, `TimeUpdate` its `timeupdate` event at the new position,
      `MetadataLoaded` its `loadedmetadata` event. `Pointer` is a mouse move
      or touch start and `TimerDue` the browser's timer queue reaching the
      given time, both in milliseconds. */
  datatype Event =
    | TogglePlay
    | MediaPlay
    | MediaPause
    | Skip(delta: real)
    | Seek(fraction: real)
    | TimeUpdate(t: real)
    | MetadataLoaded(d: PosReal)
    | ToggleMute
    | VolumeInput(v: real)
    | ToggleFullscreen
    | ToggleSettings
    | OpenMenu(m: Menu)
    | PickSpeed(r: real)
    | PickQuality(q: string)
    | KeyDown(key: string)
    | Pointer(nowMs: nat)
    | TimerDue(nowMs: nat)

  /** The fields the keyboard shortcuts and transport buttons act on. */
  predicate SamePlayback(s: PlayerState, t: PlayerState) {
    s.paused == t.paused && s.playing == t.playing && s.position == t.position
    && s.volume == t.volume && s.muted == t.muted && s.rate == t.rate
    && s.quality == t.quality && s.fullscreen == t.fullscreen
  }

  /** The progress bar's fill in percent: position over duration times 100,
      and 0 while the duration is NaN. */
  function ProgressPercent(position: real, duration: Duration): (r: real)
    ensures duration.Unknown? ==> r == 0.0
    ensures duration.Known? ==> r * duration.secs == position * 100.0
    ensures duration.Known? && 0.0 <= position <= duration.secs ==> 0.0 <= r <= 100.0
  {
    match duration
    case Unknown => 0.0
    case Known(d) =>
      var q := position / d;
      FractionBounded(position, d);
      q * 100.0
  }

  /** A position inside the video is a fraction between 0 and 1 of it. */
  lemma FractionBounded(p: real, d: real)
    requires 0.0 < d
    ensures 0.0 <= p <= d ==> 0.0 <= p / d <= 1.0
  {
    var q := p / d;
    assert (1.0 - q) * d == d - p;
    assert q * d == p;
  }

  function AsSeconds(d: Duration): TimeFormat.Seconds {
    match d
    case Unknown => TimeFormat.NotANumber
    case Known(x) => TimeFormat.Finite(x)
  }

  /** `togglePlay`: the element's own `paused` flag decides the direction. */
  function DoTogglePlay(s: PlayerState): (r: PlayerState)
    ensures r.paused == !s.paused && r.playing == s.paused
    ensures r == s.(paused := r.paused, playing := r.playing)
  {
    if s.paused then s.(paused := false, playing := true)
    else s.(paused := true, playing := false)
  }

  /** `toggleMute`: flips the mute flag and leaves the volume alone. */
  function DoToggleMute(s: PlayerState): (r: PlayerState)
    ensures r.muted != s.muted && r.volume == s.volume
    ensures r == s.(muted := r.muted)
  {
    s.(muted := !s.muted)
  }

  /** `handleVolumeChange`: the slider value becomes the volume and the
      player is muted exactly when that value is 0. */
  function DoVolume(s: PlayerState, v: real): (r: PlayerState)
    ensures r.volume == v && (r.muted <==> v == 0.0)
    ensures r == s.(volume := r.volume, muted := r.muted)
  {
    s.(volume := v, muted := v == 0.0)
  }

  /** `skip(delta)`: moves the position by `delta`; this code does not clamp. */
  function DoSkip(s: PlayerState, delta: real): (r: PlayerState)
    ensures r.position - s.position == delta
    ensures r == s.(position := r.position)
  {
    s.(position := s.position + delta)
  }

  /** `seek`: a click at `fraction` of the bar's width moves to that
      fraction of the duration. With a NaN duration the element rejects the
      assignment and nothing changes. */
  function DoSeek(s: PlayerState, fraction: real): (r: PlayerState)
    ensures s.duration.Unknown? ==> r == s
    ensures s.duration.Known? ==> r == s.(position := r.position) && r.position == fraction * s.duration.secs
    ensures s.duration.Known? && 0.0 <= fraction <= 1.0 ==> 0.0 <= r.position <= s.duration.secs
  {
    match s.duration
    case Unknown => s
    case Known(d) => s.(position := fraction * d)
  }

  /** `changePlaybackRate`: commits the speed and returns to the root menu;
      the panel stays open. */
  function DoPickSpeed(s: PlayerState, rate: real): (r: PlayerState)
    ensures r.rate == rate && r.menu == Root && r.settingsOpen == s.settingsOpen
    ensures r == s.(rate := r.rate, menu := r.menu)
  {
    s.(rate := rate, menu := Root)
  }

  /** `changeQuality`: commits the quality label and returns to the root menu. */
  function DoPickQuality(s: PlayerState, q: string): (r: PlayerState)
    ensures r.quality == q && r.menu == Root && r.settingsOpen == s.settingsOpen
    ensures r == s.(quality := r.quality, menu := r.menu)
  {
    s.(quality := q, menu := Root)
  }

  /** `toggleSettings`: opens or closes the panel, always at the root menu. */
  function DoToggleSettings(s: PlayerState): (r: PlayerState)
    ensures r.settingsOpen != s.settingsOpen && r.menu == Root
    ensures r == s.(settingsOpen := r.settingsOpen, menu := r.menu)
  {
    s.(settingsOpen := !s.settingsOpen, menu := Root)
  }

  /** The shortcut table, on an already lower-cased key. Shortcuts never
      touch the panel, the menu, the speed, the quality or the volume. */
  function Shortcut(s: PlayerState, k: string): (r: PlayerState)
    ensures r.settingsOpen == s.settingsOpen && r.menu == s.menu
    ensures r.rate == s.rate && r.quality == s.quality && r.volume == s.volume
    ensures s.playing == !s.paused ==> r.playing == !r.paused
  {
    if k == " " || k == "k" then DoTogglePlay(s)
    else if k == "f" then s.(fullscreen := !s.fullscreen)
    else if k == "m" then DoToggleMute(s)
    else if k == "arrowleft" then DoSkip(s, -SkipSeconds)
    else if k == "arrowright" then DoSkip(s, SkipSeconds)
    else s
  }

  /** The window `keydown` handler. While the panel is open only an exact
      "Escape" acts, closing the panel; otherwise the lower-cased key picks a
      shortcut and any other key does nothing. */
  function OnKey(s: PlayerState, key: string): (r: PlayerState)
    ensures s.settingsOpen ==> SamePlayback(s, r) && r.menu == s.menu
    ensures s.settingsOpen && key != "Escape" ==> r == s
    ensures !s.settingsOpen ==> r.settingsOpen == s.settingsOpen && r.menu == s.menu
    ensures r.rate == s.rate && r.quality == s.quality && r.volume == s.volume
    ensures s.playing == !s.paused ==> r.playing == !r.paused
  {
    if s.settingsOpen then
      if key == "Escape" then s.(settingsOpen := false) else s
    else
      Shortcut(s, ToLower(key))
  }

  /** `handleInteraction`: shows the controls and re-arms the single
      auto-hide timer for `HideDelayMs` from now, replacing any pending one. */
  function OnPointer(s: PlayerState, now: nat): (r: PlayerState)
    ensures r.controlsVisible && r.hideAt == Some(now + HideDelayMs)
    ensures r == s.(controlsVisible := true, hideAt := r.hideAt)
  {
    s.(controlsVisible := true, hideAt := Some(now + HideDelayMs))
  }

  /** The auto-hide timer's callback: once due, it hides the controls only
      while playing with the panel closed, and the timer is spent. Before it
      is due, or with no timer armed, nothing happens. */
  function OnTimer(s: PlayerState, now: nat): (r: PlayerState)
    ensures (s.hideAt.None? || now < s.hideAt.value) ==> r == s
    ensures s.hideAt.Some? && s.hideAt.value <= now ==>
      r.hideAt.None? && r.controlsVisible == (s.controlsVisible && !(s.playing && !s.settingsOpen))
    ensures r == s.(controlsVisible := r.controlsVisible, hideAt := r.hideAt)
  {
    match s.hideAt
    case None => s
    case Some(due) =>
      if now < due then s
      else if s.playing && !s.settingsOpen then s.(controlsVisible := false, hideAt := None)
      else s.(hideAt := None)
  }

  /** The handler an event runs, before the effect clean-up. */
  function Apply(s: PlayerState, e: Event): PlayerState {
    match e
    case TogglePlay => DoTogglePlay(s)
    case MediaPlay => s.(paused := false, playing := true)
    case MediaPause => s.(paused := true, playing := false)
    case Skip(delta) => DoSkip(s, delta)
    case Seek(f) => DoSeek(s, f)
    case TimeUpdate(t) =>
      s.(position := t, shownTime := TimeFormat.Finite(t), shownDuration := AsSeconds(s.duration),
         progress := ProgressPercent(t, s.duration))
    case MetadataLoaded(d) => s.(duration := Known(d), shownDuration := TimeFormat.Finite(d))
    case ToggleMute => DoToggleMute(s)
    case VolumeInput(v) => DoVolume(s, v)
    case ToggleFullscreen => s.(fullscreen := !s.fullscreen)
    case ToggleSettings => DoToggleSettings(s)
    case OpenMenu(m) => s.(menu := m)
    case PickSpeed(r) => DoPickSpeed(s, r)
    case PickQuality(q) => DoPickQuality(s, q)
    case KeyDown(key) => OnKey(s, key)
    case Pointer(now) => OnPointer(s, now)
    case TimerDue(now) => OnTimer(s, now)
  }

  /** One event. The auto-hide effect depends on `playing` and
      `settingsOpen`: when either changes, its clean-up cancels the pending
      timer, and the fresh effect arms none until the next pointer event. */
  function Step(s: PlayerState, e: Event): (r: PlayerState)
    ensures (r.playing != s.playing || r.settingsOpen != s.settingsOpen) ==> r.hideAt.None?
    ensures r.playing == s.playing && r.settingsOpen == s.settingsOpen ==> r == Apply(s, e)
    ensures r == Apply(s, e).(hideAt := r.hideAt)
  {
    var t := Apply(s, e);
    if t.playing != s.playing || t.settingsOpen != s.settingsOpen then t.(hideAt := None) else t
  }

  /** The value the volume slider shows: 0 while muted. */
  function SliderValue(s: PlayerState): (v: real)
    ensures s.muted ==> v == 0.0
    ensures !s.muted ==> v == s.volume
  {
    if s.muted then 0.0 else s.volume
  }

  datatype VolumeIcon = Silent | Low | High

  /** `getVolumeIcon`: silent when muted or at volume 0, low below one half,
      high otherwise. */
  function Icon(s: PlayerState): (i: VolumeIcon)
    ensures i == Silent <==> s.muted || s.volume == 0.0
    ensures i == Low <==> !s.muted && s.volume != 0.0 && s.volume < 0.5
  {
    if s.muted || s.volume == 0.0 then Silent
    else if s.volume < 0.5 then Low
    else High
  }

  /** The two time labels of the control bar: each reads back as the whole
      seconds it shows, and as 0 for a NaN or negative value. */
  function TimeLabels(s: PlayerState): (r: (string, string))
    ensures s.shownTime.Finite? && 0.0 <= s.shownTime.x ==>
      TimeFormat.ParseClock(r.0) == Some(TimeFormat.FloorNat(s.shownTime.x))
    ensures s.shownTime.NotANumber? || s.shownTime.x < 0.0 ==> r.0 == TimeFormat.Invalid
    ensures s.shownDuration.Finite? && 0.0 <= s.shownDuration.x ==>
      TimeFormat.ParseClock(r.1) == Some(TimeFormat.FloorNat(s.shownDuration.x))
    ensures s.shownDuration.NotANumber? || s.shownDuration.x < 0.0 ==> r.1 == TimeFormat.Invalid
  {
    TimeFormat.FormatTimeRoundTrip(s.shownTime);
    TimeFormat.FormatTimeRoundTrip(s.shownDuration);
    (TimeFormat.FormatTime(s.shownTime), TimeFormat.FormatTime(s.shownDuration))
  }

  /** The icon follows the slider: silent exactly when the slider sits at 0,
      low exactly when it sits strictly between 0 and one half, and high
      from one half on; muting therefore always shows the silent icon. */
  lemma IconFollowsSlider(s: PlayerState)
    requires Valid(s)
    ensures Icon(s) == Silent <==> SliderValue(s) == 0.0
    ensures Icon(s) == Low <==> 0.0 < SliderValue(s) < 0.5
    ensures Icon(s) == High <==> 0.5 <= SliderValue(s)
    ensures !s.muted ==> Icon(DoToggleMute(s)) == Silent
  {
  }

  /** The state the menus and the slider can produce: speed and quality from
      their menus, volume within the slider's range, and the playing flag in
      step with the element. */
  predicate Valid(s: PlayerState) {
    s.rate in SpeedOptions && s.quality in QualityOptions
    && 0.0 <= s.volume <= 1.0
    && s.playing == !s.paused
  }

  /** Events the rendered controls can produce: menu entries come from the
      fixed lists and the slider stays within 0..1. */
  predicate FromControls(e: Event) {
    match e
    case PickSpeed(r) => r in SpeedOptions
    case PickQuality(q) => q in QualityOptions
    case VolumeInput(v) => 0.0 <= v <= 1.0
    case _ => true
  }

  /** Runs a sequence of events from left to right. */
  function Run(s: PlayerState, es: seq<Event>): PlayerState
    decreases |es|
  {
    if es == [] then s else Run(Step(s, es[0]), es[1..])
  }

  /** Every handler, given an event from the controls, keeps the state
      valid. */
  lemma ApplyKeepsValid(s: PlayerState, e: Event)
    requires Valid(s) && FromControls(e)
    ensures Valid(Apply(s, e))
  {
    match e {
      case KeyDown(key) => assert Valid(OnKey(s, key));
      case PickSpeed(r) => assert Valid(DoPickSpeed(s, r));
      case PickQuality(q) => assert Valid(DoPickQuality(s, q));
      case VolumeInput(v) => assert Valid(DoVolume(s, v));
      case TimerDue(now) => assert Valid(OnTimer(s, now));
      case _ =>
    }
  }

  /** Every single event from the controls keeps the state valid. */
  lemma StepKeepsValid(s: PlayerState, e: Event)
    requires Valid(s) && FromControls(e)
    ensures Valid(Step(s, e))
  {
    ApplyKeepsValid(s, e);
    var t := Apply(s, e);
    assert Valid(t.(hideAt := None));
  }

  /** Any sequence of events from the controls, started from the mounted
      state, keeps the player valid. */
  lemma {:induction false} RunKeepsValid(s: PlayerState, es: seq<Event>)
    requires Valid(s)
    requires forall i :: 0 <= i < |es| ==> FromControls(es[i])
    ensures Valid(Run(s, es))
    decreases |es|
  {
    if es != [] {
      StepKeepsValid(s, es[0]);
      RunKeepsValid(Step(s, es[0]), es[1..]);
    }
  }

  lemma InitialValid()
    ensures Valid(Initial)
  {
  }

  /** Toggling play twice from a valid state restores the playback flags. */
  lemma TogglePlayTwice(s: PlayerState)
    requires Valid(s)
    ensures Step(s, TogglePlay).playing == !s.playing
    ensures Step(Step(s, TogglePlay), TogglePlay).playing == s.playing
    ensures Step(Step(s, TogglePlay), TogglePlay).paused == s.paused
  {
  }

  /** The element's own play/pause events overwrite the flag whatever the
      component believed. */
  lemma MediaEventsWin(s: PlayerState)
    ensures Step(s, MediaPlay).playing && !Step(s, MediaPlay).paused
    ensures !Step(s, MediaPause).playing && Step(s, MediaPause).paused
  {
  }

  /** Muting twice restores the exact previous state, volume included. */
  lemma MuteTwice(s: PlayerState)
    ensures Step(s, ToggleMute).volume == s.volume
    ensures Step(Step(s, ToggleMute), ToggleMute) == s
  {
  }

  /** A zero volume mutes; any other volume unmutes, also after a zero. */
  lemma VolumeMutes(s: PlayerState, v: real)
    ensures Step(s, VolumeInput(0.0)).muted
    ensures v != 0.0 ==> !Step(Step(s, VolumeInput(0.0)), VolumeInput(v)).muted
    ensures Step(Step(s, VolumeInput(0.0)), VolumeInput(v)).volume == v
  {
  }

  /** With the panel open, entering the speed menu and choosing a speed
      commits it and returns to the root menu with the panel still open;
      Escape then closes the panel and keeps the speed. */
  lemma SettingsWalk(s: PlayerState, rate: real)
    requires s.settingsOpen
    ensures var c := Step(Step(s, OpenMenu(Speed)), PickSpeed(rate));
      c.settingsOpen && c.menu == Root && c.rate == rate
    ensures var c := Step(Step(s, OpenMenu(Speed)), PickSpeed(rate));
      Step(c, KeyDown("Escape")) == c.(settingsOpen := false, hideAt := None)
  {
    assert Apply(s, OpenMenu(Speed)) == s.(menu := Speed);
    var b := Step(s, OpenMenu(Speed));
    assert b == s.(menu := Speed);
    assert Apply(b, PickSpeed(rate)) == DoPickSpeed(b, rate);
    var c := Step(b, PickSpeed(rate));
    assert c == DoPickSpeed(b, rate);
    assert c.settingsOpen && c.menu == Root && c.rate == rate;
    assert Apply(c, KeyDown("Escape")) == c.(settingsOpen := false);
  }

  /** With the panel open, no key other than Escape changes anything at all,
      and Escape changes nothing but the panel (and cancels the timer). */
  lemma MenuKeyIsolation(s: PlayerState, key: string)
    requires s.settingsOpen
    ensures key != "Escape" ==> Step(s, KeyDown(key)) == s
    ensures key == "Escape" ==> Step(s, KeyDown(key)) == s.(settingsOpen := false, hideAt := None)
  {
  }

  /** With the panel closed, the shortcuts act on the lower-cased key. */
  lemma KeyDispatch(s: PlayerState, key: string)
    requires !s.settingsOpen
    ensures ToLower(key) == " " || ToLower(key) == "k" ==> OnKey(s, key) == DoTogglePlay(s)
    ensures ToLower(key) == "f" ==> OnKey(s, key) == s.(fullscreen := !s.fullscreen)
    ensures ToLower(key) == "m" ==> OnKey(s, key) == s.(muted := !s.muted)
    ensures ToLower(key) == "arrowleft" ==> OnKey(s, key) == s.(position := s.position - 10.0)
    ensures ToLower(key) == "arrowright" ==> OnKey(s, key) == s.(position := s.position + 10.0)
    ensures var k := ToLower(key);
      k != " " && k != "k" && k != "f" && k != "m" && k != "arrowleft" && k != "arrowright" ==>
        OnKey(s, key) == s
  {
  }

  /** Shortcuts ignore letter case: two keys that lower-case alike act
      alike, so "M" mutes like "m" and "ArrowLeft" skips like "arrowleft". */
  lemma ShortcutsIgnoreCase(s: PlayerState, a: string, b: string)
    requires !s.settingsOpen
    requires ToLower(a) == ToLower(b)
    ensures Step(s, KeyDown(a)) == Step(s, KeyDown(b))
  {
    assert OnKey(s, a) == OnKey(s, b);
    assert Apply(s, KeyDown(a)) == Apply(s, KeyDown(b));
  }

  /** Escape does nothing while the panel is closed. */
  lemma EscapeWhenClosed(s: PlayerState)
    requires !s.settingsOpen
    ensures Step(s, KeyDown("Escape")) == s
  {
    var k := ToLower("Escape");
    assert |k| == 6 && k[0] == 'e';
    assert k != " " && k != "k" && k != "f" && k != "m";
    assert k != "arrowleft" && k != "arrowright";
    assert OnKey(s, "Escape") == Shortcut(s, k) == s;
    assert Apply(s, KeyDown("Escape")) == OnKey(s, "Escape");
  }

  /** A timer check before the delay has passed since the last pointer
      event leaves the controls shown and the timer pending. */
  lemma PointerKeepsControls(s: PlayerState, t: nat, later: nat)
    requires later < t + HideDelayMs
    ensures var r := Step(Step(s, Pointer(t)), TimerDue(later));
      r.controlsVisible && r.hideAt == Some(t + HideDelayMs)
  {
  }

  /** Once the delay has passed with no further pointer event, the controls
      hide exactly when the video plays with the panel closed. */
  lemma PointerThenHide(s: PlayerState, t: nat, later: nat)
    requires t + HideDelayMs <= later
    ensures var r := Step(Step(s, Pointer(t)), TimerDue(later));
      r.controlsVisible == !(s.playing && !s.settingsOpen) && r.hideAt.None?
  {
  }

  /** A new pointer event restarts the window: the earlier timer is
      replaced, not added to. */
  lemma PointerRestartsWindow(s: PlayerState, t1: nat, t2: nat, later: nat)
    requires t1 <= t2 && later < t2 + HideDelayMs
    ensures Step(Step(Step(s, Pointer(t1)), Pointer(t2)), TimerDue(later)).controlsVisible
  {
  }

  /** Starting or stopping playback, or opening or closing the panel,
      cancels the pending timer. */
  lemma FlagChangeCancelsTimer(s: PlayerState)
    requires s.playing == !s.paused
    ensures Step(s, TogglePlay).hideAt.None?
    ensures Step(s, ToggleSettings).hideAt.None?
  {
  }
}

=== FILE: progress_store.dfy ===
/** The per-unit watch-progress record kept in the browser's local storage
    under one key as a JSON object from id to number. */
module ProgressStore {

  /** The JavaScript number handed to `setWatchedProgress`. Fractions never
      occur (callers pass 100), so a finite value is an integer. */
  datatype Number = Num(n: int) | NaN

  /** What `JSON.stringify` writes for a number: `NaN` becomes `null`. */
  datatype Stored = StoredNum(n: int) | StoredNull

  /** The content of the storage slot: nothing yet, text that does not parse
      to an object, or a parsed object. */
  datatype Slot = Absent | Malformed | Parsed(entries: map<string, Stored>)

  /** `readable` is false when reading local storage throws (storage
      disabled); `writable` is false when writing throws (quota exceeded). */
  datatype Storage = Storage(readable: bool, writable: bool, slot: Slot)

  /** A store whose slot can be read, parsed and written back. */
  predicate Healthy(st: Storage) {
    st.readable && st.writable && !st.slot.Malformed?
  }

  function Serialise(p: Number): Stored {
    match p
    case Num(n) => StoredNum(n)
    case NaN => StoredNull
  }

  /** `data[id] || 0`: a falsy stored value (0 or `null`) reads as 0. */
  function Truthy(v: Stored): int {
    match v
    case StoredNum(n) => n
    case StoredNull => 0
  }

  /** The number `set` followed by `get` hands back. */
  function ReadBack(p: Number): int {
    Truthy(Serialise(p))
  }

  /** `getWatchedProgress(id)`. Any failure to read or parse yields 0; a
      non-zero result is exactly the stored number for `id`. */
  function GetWatchedProgress(st: Storage, id: string): (r: int)
    ensures !st.readable || !st.slot.Parsed? ==> r == 0
    ensures r != 0 ==> st.slot.Parsed? && id in st.slot.entries && st.slot.entries[id] == StoredNum(r)
    ensures st.readable && st.slot.Parsed? && id in st.slot.entries ==> r == Truthy(st.slot.entries[id])
  {
    if !st.readable then 0
    else match st.slot
      case Absent => 0
      case Malformed => 0
      case Parsed(m) => if id in m then Truthy(m[id]) else 0
  }

  /** `setWatchedProgress(id, p)`. On a healthy store the id now reads back
      `p` and no other id's reading changes; on any failure the store is left
      exactly as it was and nothing is thrown. */
  function SetWatchedProgress(st: Storage, id: string, p: Number): (r: Storage)
    ensures !Healthy(st) ==> r == st
    ensures Healthy(st) ==> Healthy(r) && GetWatchedProgress(r, id) == ReadBack(p)
    ensures forall k :: k != id ==> GetWatchedProgress(r, k) == GetWatchedProgress(st, k)
    ensures r.readable == st.readable && r.writable == st.writable
  {
    if !st.readable || !st.writable then st
    else match st.slot
      case Absent => st.(slot := Parsed(map[id := Serialise(p)]))
      case Malformed => st
      case Parsed(m) => st.(slot := Parsed(m[id := Serialise(p)]))
  }

  /** An id that was never written reads as 0. */
  lemma GetUnwritten(st: Storage, id: string)
    requires !st.slot.Parsed? || id !in st.slot.entries
    ensures GetWatchedProgress(st, id) == 0
  {
  }

  /** A finite progress value survives the round trip unchanged; a falsy one
      (0 or NaN) reads back as 0. */
  lemma SetThenGet(st: Storage, id: string, p: Number)
    requires Healthy(st)
    ensures p.Num? ==> GetWatchedProgress(SetWatchedProgress(st, id, p), id) == p.n
    ensures p.NaN? ==> GetWatchedProgress(SetWatchedProgress(st, id, p), id) == 0
  {
  }

  /** A set overwrites: the earlier value for the same id leaves no trace,
      and repeating a set changes nothing. */
  lemma SetOverwrites(st: Storage, id: string, p: Number, q: Number)
    ensures SetWatchedProgress(SetWatchedProgress(st, id, p), id, q) == SetWatchedProgress(st, id, q)
    ensures SetWatchedProgress(SetWatchedProgress(st, id, q), id, q) == SetWatchedProgress(st, id, q)
  {
  }

  /** The values are stored as given: no clamping to [0, 100] and no
      accumulation with the previous value. */
  lemma NoClamping(st: Storage, id: string)
    requires Healthy(st)
    ensures GetWatchedProgress(SetWatchedProgress(st, id, Num(150)), id) == 150
    ensures GetWatchedProgress(SetWatchedProgress(st, id, Num(-20)), id) == -20
  {
  }
}

=== FILE: seqs.dfy ===
/** The array methods the front end relies on (`findIndex`, `find`, `some`,
    `filter`, `slice` and a descending `sort`), as total functions on
    sequences. */
module Seqs {
  import opened Wrappers

  /** `s.findIndex(p)`: the first position whose element satisfies `p`, or -1
      when there is none. */
  function FindIndex<T>(s: seq<T>, p: T -> bool): (r: int)
    ensures -1 <= r < |s|
    ensures r == -1 <==> forall i :: 0 <= i < |s| ==> !p(s[i])
    ensures 0 <= r ==> p(s[r]) && forall i :: 0 <= i < r ==> !p(s[i])
  {
    if |s| == 0 then -1
    else if p(s[0]) then 0
    else
      var k := FindIndex(s[1..], p);
      if k == -1 then -1 else k + 1
  }

  /** `s.some(p)`. */
  predicate Any<T>(s: seq<T>, p: T -> bool) {
    exists i :: 0 <= i < |s| && p(s[i])
  }

  /** `s.find(p)`: the first element satisfying `p`, or nothing. */
  function Find<T>(s: seq<T>, p: T -> bool): (r: Option<T>)
    ensures r.None? <==> !Any(s, p)
    ensures r.Some? ==> r.value == s[FindIndex(s, p)]
  {
    var k := FindIndex(s, p);
    if k == -1 then None else Some(s[k])
  }

  /** `a` is an order-preserving subsequence of `b`. */
  ghost predicate IsSubsequence<T>(a: seq<T>, b: seq<T>)
    decreases |b|
  {
    |a| == 0 ||
    (|b| > 0 && ((a[0] == b[0] && IsSubsequence(a[1..], b[1..])) || IsSubsequence(a, b[1..])))
  }

  /** `s.filter(p)`: exactly the elements of `s` that satisfy `p`, each as
      often as in `s`, in their original order. */
  function Filter<T(!new)>(s: seq<T>, p: T -> bool): (r: seq<T>)
    ensures |r| <= |s|
    ensures forall x :: x in r <==> x in s && p(x)
    ensures forall x :: multiset(r)[x] == if p(x) then multiset(s)[x] else 0
    ensures IsSubsequence(r, s)
  {
    if s == [] then []
    else
      var rest := Filter(s[1..], p);
      assert s == [s[0]] + s[1..];
      if p(s[0]) then [s[0]] + rest else rest
  }

  /** A filter whose predicate holds everywhere keeps the sequence whole. */
  lemma {:induction false} FilterKeepsAll<T(!new)>(s: seq<T>, p: T -> bool)
    requires forall i :: 0 <= i < |s| ==> p(s[i])
    ensures Filter(s, p) == s
  {
    if s != [] {
      FilterKeepsAll(s[1..], p);
    }
  }

  /** `s.slice(0, n)`: the first `n` elements, or all of them when fewer. */
  function Take<T>(s: seq<T>, n: nat): (r: seq<T>)
    ensures |r| == if n < |s| then n else |s|
    ensures forall i :: 0 <= i < |r| ==> r[i] == s[i]
  {
    if n < |s| then s[..n] else s
  }

  /** Keys are non-increasing from left to right. */
  ghost predicate SortedDesc<T>(s: seq<T>, key: T -> int) {
    forall i, j :: 0 <= i < j < |s| ==> key(s[i]) >= key(s[j])
  }

  /** Places `x` in front of the first element whose key is smaller than or
      equal to its own. */
  function InsertDesc<T>(x: T, s: seq<T>, key: T -> int): (r: seq<T>)
    requires SortedDesc(s, key)
    ensures SortedDesc(r, key)
    ensures multiset(r) == multiset(s) + multiset{x}
  {
    if s == [] || key(x) >= key(s[0]) then
      ConsSorted(x, s, key);
      [x] + s
    else
      var rest := InsertDesc(x, s[1..], key);
      assert s == [s[0]] + s[1..];
      KeysBounded(rest, s[1..], x, key, key(s[0]));
      ConsSorted(s[0], rest, key);
      [s[0]] + rest
  }

  /** Putting an element with a key no smaller than the first in front keeps
      a sequence sorted. */
  lemma ConsSorted<T>(h: T, s: seq<T>, key: T -> int)
    requires SortedDesc(s, key)
    requires s != [] ==> key(h) >= key(s[0])
    ensures SortedDesc([h] + s, key)
  {
    var r := [h] + s;
    forall i, j | 0 <= i < j < |r|
      ensures key(r[i]) >= key(r[j])
    {
      if i == 0 {
        assert r[j] == s[j - 1];
        assert key(s[0]) >= key(s[j - 1]) || j == 1;
      } else {
        assert r[i] == s[i - 1] && r[j] == s[j - 1];
      }
    }
  }

  /** A permutation of `s` with `x` added keeps every key at most `b` when
      `s` and `x` did. */
  lemma KeysBounded<T>(rest: seq<T>, s: seq<T>, x: T, key: T -> int, b: int)
    requires forall i :: 0 <= i < |s| ==> key(s[i]) <= b
    requires key(x) <= b
    requires multiset(rest) == multiset(s) + multiset{x}
    ensures forall j :: 0 <= j < |rest| ==> key(rest[j]) <= b
  {
    forall j | 0 <= j < |rest|
      ensures key(rest[j]) <= b
    {
      assert rest[j] in multiset(rest);
      assert rest[j] == x || rest[j] in multiset(s);
    }
  }

  /** `[...s].sort((a, b) => key(b) - key(a))`: a permutation of `s` whose keys
      never increase. */
  function SortDesc<T>(s: seq<T>, key: T -> int): (r: seq<T>)
    ensures SortedDesc(r, key)
    ensures multiset(r) == multiset(s)
    ensures |r| == |s|
  {
    if s == [] then []
    else
      assert s == [s[0]] + s[1..];
      InsertDesc(s[0], SortDesc(s[1..], key), key)
  }
}

=== FILE: text.dfy ===
/** String helpers that mirror the JavaScript string operations the front end
    uses: `toLowerCase`, `includes`, `Number.prototype.toString` on
    non-negative integers and `padStart`. */
module Text {

  /** Lower-cases one character. Only the ASCII letters A-Z are mapped. */
  function LowerChar(c: char): char {
    if 'A' <= c <= 'Z' then (c as int + 32) as char else c
  }

  predicate IsUpper(c: char) {
    'A' <= c <= 'Z'
  }

  /** `s.toLowerCase()` restricted to ASCII letters. */
  function ToLower(s: string): (r: string)
    ensures |r| == |s|
    ensures forall i :: 0 <= i < |s| ==> r[i] == LowerChar(s[i])
  {
    if s == [] then [] else [LowerChar(s[0])] + ToLower(s[1..])
  }

  /** Lower-casing twice is lower-casing once. */
  lemma ToLowerIdempotent(s: string)
    ensures forall i :: 0 <= i < |s| ==> !IsUpper(ToLower(s)[i])
    ensures ToLower(ToLower(s)) == ToLower(s)
  {
  }

  predicate IsPrefix(p: string, s: string) {
    |p| <= |s| && s[..|p|] == p
  }

  /** `s.includes(t)`: some window of `s` equals `t`. */
  predicate Contains(s: string, t: string)
    decreases |s|
  {
    IsPrefix(t, s) || (|s| > 0 && Contains(s[1..], t))
  }

  /** `t` occurs in `s` starting at position `i`. */
  ghost predicate OccursAt(s: string, t: string, i: int) {
    0 <= i && i + |t| <= |s| && s[i..i + |t|] == t
  }

  /** The recursive `Contains` agrees with the positional definition of a
      substring, in both directions. */
  lemma {:induction false} ContainsIffOccurs(s: string, t: string)
    ensures Contains(s, t) <==> exists i :: OccursAt(s, t, i)
    decreases |s|
  {
    if IsPrefix(t, s) {
      assert OccursAt(s, t, 0);
    } else if |s| > 0 {
      ContainsIffOccurs(s[1..], t);
      if exists i :: OccursAt(s[1..], t, i) {
        var i :| OccursAt(s[1..], t, i);
        assert s[1..][i..i + |t|] == s[i + 1..i + 1 + |t|];
        assert OccursAt(s, t, i + 1);
      }
      if exists i :: OccursAt(s, t, i) {
        var i :| OccursAt(s, t, i);
        assert s[1..][i - 1..i - 1 + |t|] == s[i..i + |t|];
        assert OccursAt(s[1..], t, i - 1);
      }
    }
  }

  /** Every string contains the empty string, so an empty search term keeps
      every entry. */
  lemma ContainsEmpty(s: string)
    ensures Contains(s, "")
  {
    assert IsPrefix("", s);
  }

  predicate IsDigit(c: char) {
    '0' <= c <= '9'
  }

  predicate AllDigits(s: string) {
    forall i :: 0 <= i < |s| ==> IsDigit(s[i])
  }

  function DigitChar(d: nat): (c: char)
    requires d < 10
    ensures IsDigit(c)
    ensures c as int - '0' as int == d
  {
    ('0' as int + d) as char
  }

  /** The value of a decimal numeral, most significant digit first. */
  function DigitsValue(s: string): nat
    requires AllDigits(s)
  {
    if s == [] then 0
    else DigitsValue(s[..|s| - 1]) * 10 + (s[|s| - 1] as int - '0' as int)
  }

  /** `n.toString()` for a non-negative integer: its shortest decimal numeral. */
  function NatToString(n: nat): (r: string)
    ensures 1 <= |r|
    ensures |r| == 1 <==> n < 10
    ensures r[0] == '0' <==> n == 0
    decreases n
  {
    if n < 10 then [DigitChar(n)] else NatToString(n / 10) + [DigitChar(n % 10)]
  }

  /** The numeral consists of digits and reads back as the number it was
      written from. */
  lemma {:induction false} NatToStringValue(n: nat)
    ensures AllDigits(NatToString(n))
    ensures DigitsValue(NatToString(n)) == n
    decreases n
  {
    if n >= 10 {
      var front := NatToString(n / 10);
      var r := NatToString(n);
      NatToStringValue(n / 10);
      assert r == front + [DigitChar(n % 10)];
      assert r[..|r| - 1] == front;
    }
  }

  /** `s.padStart(width, fill)`: `s` itself when already `width` long,
      otherwise `fill` characters in front up to `width`. */
  function PadStart(s: string, width: nat, fill: char): (r: string)
    ensures |r| == if |s| >= width then |s| else width
    decreases width - |s|
  {
    if |s| >= width then s else PadStart([fill] + s, width, fill)
  }

  /** Padding only ever adds `fill` characters in front of `s`. */
  lemma {:induction false} PadStartShape(s: string, width: nat, fill: char)
    ensures var r := PadStart(s, width, fill);
      r == seq(|r| - |s|, _ => fill) + s
    decreases width - |s|
  {
    if |s| < width {
      PadStartShape([fill] + s, width, fill);
      var r := PadStart(s, width, fill);
      assert seq(|r| - |s| - 1, _ => fill) + ([fill] + s) == seq(|r| - |s|, _ => fill) + s;
    }
  }

  /** A leading zero does not change the value of a numeral. */
  lemma {:induction false} LeadingZero(s: string)
    requires AllDigits(s)
    ensures AllDigits(['0'] + s)
    ensures DigitsValue(['0'] + s) == DigitsValue(s)
    decreases |s|
  {
    var z := ['0'] + s;
    if s != [] {
      assert z[..|z| - 1] == ['0'] + s[..|s| - 1];
      LeadingZero(s[..|s| - 1]);
    } else {
      assert z[..|z| - 1] == [];
    }
  }

  /** `n.toString().padStart(2, '0')`. */
  function Pad2(n: nat): (r: string)
    ensures 2 <= |r|
    ensures n < 100 ==> |r| == 2
  {
    PadStart(NatToString(n), 2, '0')
  }

  /** The padded numeral consists of digits and still reads as `n`. */
  lemma Pad2Value(n: nat)
    ensures AllDigits(Pad2(n))
    ensures DigitsValue(Pad2(n)) == n
  {
    var d := NatToString(n);
    NatToStringValue(n);
    if |d| < 2 {
      assert PadStart(['0'] + d, 2, '0') == ['0'] + d;
      LeadingZero(d);
    }
  }

  /** The shape `Pad2` writes: exactly two characters, or a longer numeral
      without a leading zero. */
  predicate Padded(u: string) {
    2 <= |u| && (|u| == 2 || u[0] != '0')
  }

  /** Every padded numeral has the shape `Padded` describes. */
  lemma Pad2Padded(n: nat)
    ensures Padded(Pad2(n))
  {
    if 100 <= n {
      var d := NatToString(n);
      assert PadStart(d, 2, '0') == d;
    }
  }

  /** A numeral without a leading zero is the shortest numeral of its value. */
  lemma {:induction false} NatToStringOfDigits(u: string)
    requires AllDigits(u) && 1 <= |u| && (|u| == 1 || u[0] != '0')
    ensures NatToString(DigitsValue(u)) == u
    decreases |u|
  {
    var c := u[|u| - 1];
    var d := c as int - '0' as int;
    assert IsDigit(c);
    if |u| == 1 {
      assert u[..0] == [];
      assert DigitsValue(u) == d;
      assert [DigitChar(d)] == u;
    } else {
      var p := u[..|u| - 1];
      assert AllDigits(p) && p[0] == u[0];
      NatToStringOfDigits(p);
      var v := DigitsValue(p);
      assert v != 0;
      assert DigitsValue(u) == v * 10 + d;
      assert (v * 10 + d) / 10 == v && (v * 10 + d) % 10 == d;
      assert NatToString(v * 10 + d) == p + [DigitChar(d)];
      assert p + [c] == u;
    }
  }

  /** Reading a numeral of the padded shape and padding it again gives the
      same text: `Pad2` is the only way to write a padded field. */
  lemma PaddedDigits(u: string)
    requires AllDigits(u) && Padded(u)
    ensures Pad2(DigitsValue(u)) == u
  {
    if u[0] == '0' {
      var t := u[1..];
      assert u == ['0'] + t;
      LeadingZero(t);
      assert u[1..2] == [u[1]];
      NatToStringOfDigits(t);
      var v := DigitsValue(t);
      assert NatToString(v) == t && |t| == 1;
      assert PadStart(t, 2, '0') == PadStart(['0'] + t, 2, '0');
    } else {
      NatToStringOfDigits(u);
    }
  }
}

=== FILE: time_format.dfy ===
/** The player's time label (`formatTime`): whole hours, minutes and seconds
    of a playback position, zero-padded to two digits and joined by colons,
    with the hour field only when it is non-zero. */
module TimeFormat {
  import opened Text
  import opened Wrappers

  /** A JavaScript number of seconds as the media element reports it. */
  datatype Seconds = Finite(x: real) | NotANumber

  const Invalid: string := "00:00"

  /** Hours, minutes and seconds of a whole number of seconds. */
  datatype Clock = Clock(h: nat, m: nat, s: nat)

  /** The fields `formatTime` computes: the minute and second fields stay
      below 60 and the three recombine to the whole number of seconds. */
  function Split(n: nat): (c: Clock)
    ensures c.m < 60 && c.s < 60
    ensures c.h * 3600 + c.m * 60 + c.s == n
  {
    Clock(n / 3600, (n % 3600) / 60, n % 60)
  }

  /** `a + ":" + b` where `b` is a two-character field. */
  function Colon(a: string, b: string): (r: string)
    requires |b| == 2
    ensures |r| == |a| + 3 && r[|a|] == ':'
    ensures r[..|a|] == a && r[|a| + 1..] == b
  {
    a + [':'] + b
  }

  /** `hh + ":" + mm + ":" + ss` for two-character minute and second fields. */
  function Join3(hh: string, mm: string, ss: string): (r: string)
    requires |hh| >= 2 && |mm| == 2 && |ss| == 2
    ensures 8 <= |r| && r[|r| - 3] == ':' && r[|r| - 6] == ':'
  {
    var left := Colon(hh, mm);
    var r := Colon(left, ss);
    assert r[|r| - 6] == left[|hh|];
    r
  }

  /** The three fields can be cut back out of the joined label. */
  lemma Join3Parts(hh: string, mm: string, ss: string)
    requires |hh| >= 2 && |mm| == 2 && |ss| == 2
    ensures var r := Join3(hh, mm, ss);
      r[..|r| - 6] == hh && r[|r| - 5..|r| - 3] == mm && r[|r| - 2..] == ss
  {
    var left := Colon(hh, mm);
    var r := Colon(left, ss);
    assert r[..|r| - 6] == left[..|hh|];
    assert r[|r| - 5..|r| - 3] == left[|hh| + 1..];
  }

  /** The label of the three fields: the hour field only when non-zero. */
  function FormatFields(h: nat, m: nat, s: nat): (r: string)
    requires m < 60 && s < 60
    ensures h == 0 ==> |r| == 5 && r[2] == ':'
    ensures h > 0 ==> 8 <= |r| && r[|r| - 3] == ':' && r[|r| - 6] == ':'
  {
    var mm := Pad2(m);
    var ss := Pad2(s);
    assert |mm| == 2 && |ss| == 2;
    if h > 0 then
      var hh := Pad2(h);
      assert |hh| >= 2;
      Join3(hh, mm, ss)
    else Colon(mm, ss)
  }

  /** The label of a whole, non-negative number of seconds. */
  function FormatWhole(n: nat): (r: string)
    ensures n < 3600 ==> |r| == 5 && r[2] == ':'
    ensures 3600 <= n ==> 8 <= |r| && r[|r| - 3] == ':' && r[|r| - 6] == ':'
  {
    var c := Split(n);
    assert c.h == 0 <==> n < 3600;
    FormatFields(c.h, c.m, c.s)
  }

  /** `Math.floor(x)` on a real known to be non-negative. */
  function FloorNat(x: real): nat
    requires 0.0 <= x
  {
    x.Floor
  }

  /** `x % d` for a non-negative `x` and positive `d`, as JavaScript computes
      it on numbers. */
  function JsMod(x: real, d: nat): real
    requires 0.0 <= x && 0 < d
  {
    x - (d as real) * ((x / d as real).Floor as real)
  }

  /** `formatTime(seconds)`: "00:00" for NaN or a negative value; otherwise
      the label of the whole seconds, where the fields the source computes
      with floating-point division and `%` equal the integer ones. */
  function FormatTime(t: Seconds): (r: string)
    ensures t.NotANumber? ==> r == Invalid
    ensures t.Finite? && t.x < 0.0 ==> r == Invalid
    ensures t.Finite? && 0.0 <= t.x ==> r == FormatWhole(FloorNat(t.x))
  {
    match t
    case NotANumber => Invalid
    case Finite(x) =>
      if x < 0.0 then Invalid
      else
        JsFieldsAreWhole(x);
        var h := (x / 3600.0).Floor;
        var m := (JsMod(x, 3600) / 60.0).Floor;
        var s := JsMod(x, 60).Floor;
        FormatFields(h, m, s)
  }

  lemma FloorIs(r: real, k: int)
    requires k as real <= r < k as real + 1.0
    ensures r.Floor == k
  {
  }

  /** Scaling by a positive factor preserves the order of two reals. */
  lemma ScaleOrder(a: real, b: real, c: real)
    requires 0.0 < c
    ensures a * c <= b * c <==> a <= b
    ensures a * c < b * c <==> a < b
  {
  }

  /** Dividing before or after taking the floor gives the same quotient. */
  lemma FloorDiv(x: real, d: nat)
    requires 0.0 <= x && 0 < d
    ensures (x / d as real).Floor == x.Floor / d
  {
    var n := x.Floor;
    var q := n / d;
    var dr := d as real;
    var y := x / dr;
    assert q * d <= n < q * d + d;
    assert (q as real) * dr <= x < (q as real + 1.0) * dr;
    assert y * dr == x;
    ScaleOrder(q as real, y, dr);
    assert q as real <= y;
    ScaleOrder(y, q as real + 1.0, dr);
    assert y < q as real + 1.0;
    FloorIs(y, q);
  }

  /** The floor of `x % d` is the integer remainder of the floor of `x`. */
  lemma FloorMod(x: real, d: nat)
    requires 0.0 <= x && 0 < d
    ensures 0.0 <= JsMod(x, d)
    ensures JsMod(x, d).Floor == x.Floor % d
  {
    FloorDiv(x, d);
    var n := x.Floor;
    var q := n / d;
    assert JsMod(x, d) == x - (d * q) as real;
    assert n - d * q == n % d;
    FloorIs(JsMod(x, d), n - d * q);
  }

  /** `Math.floor(x / 3600)`, `Math.floor((x % 3600) / 60)` and
      `Math.floor(x % 60)` are the hour, minute and second fields of the whole
      seconds of `x`. */
  lemma JsFieldsAreWhole(x: real)
    requires 0.0 <= x
    ensures (x / 3600.0).Floor == Split(FloorNat(x)).h
    ensures (JsMod(x, 3600) / 60.0).Floor == Split(FloorNat(x)).m
    ensures JsMod(x, 60).Floor == Split(FloorNat(x)).s
  {
    FloorDiv(x, 3600);
    FloorMod(x, 3600);
    FloorDiv(JsMod(x, 3600), 60);
    FloorMod(x, 60);
  }

  /** Reads one numeric field of a label. */
  function ReadNum(u: string): Option<nat> {
    if AllDigits(u) then Some(DigitsValue(u)) else None
  }

  /** A padded field reads back as the number it was written from. */
  lemma ReadPad2(n: nat)
    ensures ReadNum(Pad2(n)) == Some(n)
  {
    Pad2Value(n);
  }

  /** Reads the hour field of a long label: a padded numeral that is not
      zero, since `formatTime` leaves the hour field out when it is zero. */
  function ReadHours(u: string): (r: Option<nat>)
    ensures r.Some? <==> AllDigits(u) && Padded(u) && DigitsValue(u) > 0
    ensures r.Some? ==> r.value == DigitsValue(u)
  {
    if Padded(u) then
      match ReadNum(u)
      case Some(h) => if h > 0 then Some(h) else None
      case None => None
    else None
  }

  /** Combines the fields read from a label into seconds; a minute or second
      field of 60 or more is not one `formatTime` writes. */
  function Combine(h: Option<nat>, m: Option<nat>, s: Option<nat>): Option<nat> {
    if h.Some? && m.Some? && s.Some? && m.value < 60 && s.value < 60 then
      Some(h.value * 3600 + m.value * 60 + s.value)
    else None
  }

  /** Reads a label of the shape `FormatWhole` writes back into seconds. */
  function ParseClock(t: string): Option<nat> {
    if |t| == 5 && t[2] == ':' then
      Combine(Some(0), ReadNum(t[..2]), ReadNum(t[3..]))
    else if 8 <= |t| && t[|t| - 6] == ':' && t[|t| - 3] == ':' then
      Combine(ReadHours(t[..|t| - 6]), ReadNum(t[|t| - 5..|t| - 3]), ReadNum(t[|t| - 2..]))
    else None
  }

  /** The label loses nothing: reading it back yields the whole seconds. */
  lemma FormatWholeRoundTrip(n: nat)
    ensures ParseClock(FormatWhole(n)) == Some(n)
  {
    var c := Split(n);
    FormatFieldsRoundTrip(c.h, c.m, c.s);
  }

  /** The parser accepts only labels `FormatWhole` writes: whatever reads as
      `n` is the label of `n`, so no second spelling (a field of 60 or more,
      an extra leading zero, a zero hour field) is accepted. */
  lemma ParseClockCanonical(t: string, n: nat)
    requires ParseClock(t) == Some(n)
    ensures t == FormatWhole(n)
  {
    if |t| == 5 && t[2] == ':' {
      ShortLabelCanonical(t, n);
    } else {
      LongLabelCanonical(t, n);
    }
  }

  /** A `MM:SS` label that reads as `n` is the label of `n`. */
  lemma ShortLabelCanonical(t: string, n: nat)
    requires |t| == 5 && t[2] == ':'
    requires Combine(Some(0), ReadNum(t[..2]), ReadNum(t[3..])) == Some(n)
    ensures t == FormatWhole(n)
  {
    var mm, ss := t[..2], t[3..];
    assert t == Colon(mm, ss);
    var m, s := DigitsValue(mm), DigitsValue(ss);
    assert m < 60 && s < 60 && n == 0 * 3600 + m * 60 + s;
    PaddedDigits(mm);
    PaddedDigits(ss);
    FormatWholeOfFields(n, 0, m, s);
  }

  /** An `H:MM:SS` label that reads as `n` is the label of `n`. */
  lemma LongLabelCanonical(t: string, n: nat)
    requires 8 <= |t| && t[|t| - 6] == ':' && t[|t| - 3] == ':'
    requires Combine(ReadHours(t[..|t| - 6]), ReadNum(t[|t| - 5..|t| - 3]), ReadNum(t[|t| - 2..])) == Some(n)
    ensures t == FormatWhole(n)
  {
    var hh, mm, ss := t[..|t| - 6], t[|t| - 5..|t| - 3], t[|t| - 2..];
    CutJoin3(t);
    var h, m, s := DigitsValue(hh), DigitsValue(mm), DigitsValue(ss);
    assert 0 < h && m < 60 && s < 60 && n == h * 3600 + m * 60 + s;
    PaddedDigits(hh);
    PaddedDigits(mm);
    PaddedDigits(ss);
    FormatWholeOfFields(n, h, m, s);
  }

  /** A long label is the join of the three fields cut out of it. */
  lemma CutJoin3(t: string)
    requires 8 <= |t| && t[|t| - 6] == ':' && t[|t| - 3] == ':'
    ensures t == Join3(t[..|t| - 6], t[|t| - 5..|t| - 3], t[|t| - 2..])
  {
    var hh, mm, ss := t[..|t| - 6], t[|t| - 5..|t| - 3], t[|t| - 2..];
    assert t == hh + [':'] + mm + [':'] + ss;
  }

  /** The label of `h*3600 + m*60 + s` is written from exactly those fields. */
  lemma FormatWholeOfFields(n: nat, h: nat, m: nat, s: nat)
    requires m < 60 && s < 60 && n == h * 3600 + m * 60 + s
    ensures FormatWhole(n) == FormatFields(h, m, s)
  {
    SplitUnique(n, h, m, s);
  }

  /** The fields of a whole number of seconds are unique. */
  lemma SplitUnique(n: nat, h: nat, m: nat, s: nat)
    requires m < 60 && s < 60 && n == h * 3600 + m * 60 + s
    ensures Split(n) == Clock(h, m, s)
  {
    assert n / 3600 == h;
    assert n % 3600 == m * 60 + s;
    assert (m * 60 + s) / 60 == m;
  }

  /** Reading the label of three fields back recombines them. */
  lemma FormatFieldsRoundTrip(h: nat, m: nat, s: nat)
    requires m < 60 && s < 60
    ensures ParseClock(FormatFields(h, m, s)) == Some(h * 3600 + m * 60 + s)
  {
    if h > 0 {
      HoursRoundTrip(h, m, s);
    } else {
      MinutesRoundTrip(m, s);
    }
  }

  /** A label with an hour field reads back through its three fields. */
  lemma HoursRoundTrip(h: nat, m: nat, s: nat)
    requires 0 < h && m < 60 && s < 60
    ensures ParseClock(FormatFields(h, m, s)) == Some(h * 3600 + m * 60 + s)
  {
    var hh, mm, ss := Pad2(h), Pad2(m), Pad2(s);
    assert FormatFields(h, m, s) == Join3(hh, mm, ss);
    ParseJoin3(hh, mm, ss);
    Pad2Value(h);
    Pad2Padded(h);
    ReadPad2(m);
    ReadPad2(s);
    assert Combine(ReadHours(hh), ReadNum(mm), ReadNum(ss)) == Combine(Some(h), Some(m), Some(s));
  }

  /** A label without an hour field reads back through its two fields. */
  lemma MinutesRoundTrip(m: nat, s: nat)
    requires m < 60 && s < 60
    ensures ParseClock(FormatFields(0, m, s)) == Some(m * 60 + s)
  {
    var mm, ss := Pad2(m), Pad2(s);
    ReadPad2(m);
    ReadPad2(s);
    assert FormatFields(0, m, s) == Colon(mm, ss);
    ParseColon(mm, ss);
  }

  lemma ParseColon(mm: string, ss: string)
    requires |mm| == 2 && |ss| == 2
    ensures ParseClock(Colon(mm, ss)) == Combine(Some(0), ReadNum(mm), ReadNum(ss))
  {
    var r := Colon(mm, ss);
    assert r[..2] == mm && r[3..] == ss;
  }

  lemma ParseJoin3(hh: string, mm: string, ss: string)
    requires |hh| >= 2 && |mm| == 2 && |ss| == 2
    ensures ParseClock(Join3(hh, mm, ss)) == Combine(ReadHours(hh), ReadNum(mm), ReadNum(ss))
  {
    Join3Parts(hh, mm, ss);
  }

  /** Every label reads back: to 0 for NaN or negative input, otherwise to
      the floor of the input. */
  lemma FormatTimeRoundTrip(t: Seconds)
    ensures t.Finite? && 0.0 <= t.x ==> ParseClock(FormatTime(t)) == Some(FloorNat(t.x))
    ensures (t.NotANumber? || t.x < 0.0) ==> ParseClock(FormatTime(t)) == Some(0)
  {
    if t.Finite? && 0.0 <= t.x {
      var n := FloorNat(t.x);
      assert FormatTime(t) == FormatWhole(n);
      FormatWholeRoundTrip(n);
    } else {
      assert FormatTime(t) == Invalid;
      FormatWholeRoundTrip(0);
      assert FormatWhole(0) == Invalid by {
        Pad2Small(0);
      }
    }
  }

  lemma Pad2Small(n: nat)
    requires n < 10
    ensures Pad2(n) == ['0', DigitChar(n)]
  {
    var d := [DigitChar(n)];
    assert NatToString(n) == d;
    assert ['0'] + d == ['0', DigitChar(n)];
    assert PadStart(d, 2, '0') == PadStart(['0'] + d, 2, '0');
    assert PadStart(['0', DigitChar(n)], 2, '0') == ['0', DigitChar(n)];
  }

  /** The reference table for the label. */
  lemma FormatTimeExamples()
    ensures FormatTime(Finite(0.0)) == "00:00"
    ensures FormatTime(Finite(65.0)) == "01:05"
    ensures FormatTime(Finite(3661.0)) == "01:01:01"
    ensures FormatTime(Finite(-5.0)) == "00:00"
    ensures FormatTime(NotANumber) == "00:00"
  {
    Pad2Small(0);
    Pad2Small(1);
    Pad2Small(5);
    FloorIs(0.0, 0);
    assert Split(0) == Clock(0, 0, 0);
    assert FormatWhole(0) == "00:00";
    FloorIs(65.0, 65);
    assert Split(65) == Clock(0, 1, 5);
    assert FormatWhole(65) == "01:05";
    FloorIs(3661.0, 3661);
    assert Split(3661) == Clock(1, 1, 1);
    assert FormatWhole(3661) == "01:01:01";
  }
}

=== FILE: watch.dfy ===
/** The watch page: the (season, episode) cursor over the loaded item, the
    "next up" episode, the season selector, and the rule that every episode
    the cursor moves to is recorded as fully watched. */
module Watch {
  import opened Wrappers
  import opened Catalog
  import Seqs
  import Text
  import Store = ProgressStore

  /** The page's state. `item`, `season` and `episode` survive a change of
      the route parameter, because the page component stays mounted;
      `redirected` records a navigation to "/". */
  datatype Session = Session(
    item: Option<Media>,
    season: Option<Season>,
    episode: Option<Episode>,
    selectorOpen: bool,
    sidebarVisible: bool,
    redirected: bool,
    store: Store.Storage)

  function Fresh(store: Store.Storage): Session {
    Session(None, None, None, false, true, false, store)
  }

  /** Moves the cursor to `e`. The progress effect depends on the current
      episode, so it runs, and writes 100 for `e`, only when the episode
      actually changes. */
  function ChangeEpisode(s: Session, e: Episode): (r: Session)
    ensures r.episode == Some(e)
    ensures r.item == s.item && r.season == s.season && r.selectorOpen == s.selectorOpen
    ensures r == s.(episode := r.episode, store := r.store)
    ensures s.episode == Some(e) ==> r == s
    ensures s.episode != Some(e) && Store.Healthy(s.store) ==> Store.GetWatchedProgress(r.store, e.id) == 100
    ensures forall k :: k != e.id ==> Store.GetWatchedProgress(r.store, k) == Store.GetWatchedProgress(s.store, k)
  {
    if s.episode == Some(e) then
      s
    else
      s.(episode := Some(e), store := Store.SetWatchedProgress(s.store, e.id, Store.Num(100)))
  }

  /** `data.find(m => m.id === id)`: the first catalog entry with the id. */
  function Lookup(catalog: seq<Media>, id: string): (r: Option<Media>)
    ensures r.None? <==> forall j :: 0 <= j < |catalog| ==> catalog[j].id != id
    ensures r.Some? ==>
              exists k :: 0 <= k < |catalog| && catalog[k] == r.value && r.value.id == id
                          && forall j :: 0 <= j < k ==> catalog[j].id != id
  {
    var p := (m: Media) => m.id == id;
    var r := Seqs.Find(catalog, p);
    assert r.Some? ==> p(catalog[Seqs.FindIndex(catalog, p)]);
    r
  }

  /** `loadItem` once the catalog has been fetched. An empty id does
      nothing; an id not in the catalog redirects home; a series with at
      least one season starts at its first season, and at that season's
      first episode when it has one; a movie is recorded as fully watched. */
  function Load(s: Session, id: string, catalog: seq<Media>): (r: Session)
    ensures id == "" ==> r == s
    ensures id != "" && Lookup(catalog, id).None? ==> r == s.(redirected := true)
    ensures r.selectorOpen == s.selectorOpen && r.sidebarVisible == s.sidebarVisible
    ensures r.item.Some? && r.item != s.item ==> r.item.value in catalog && r.item.value.id == id
    ensures id != "" && Lookup(catalog, id).Some? ==> r.item == Lookup(catalog, id)
  {
    if id == "" then s
    else
      match Lookup(catalog, id)
      case None => s.(redirected := true)
      case Some(found) =>
        var s1 := s.(item := Some(found));
        if found.kind == Series && found.seasons.Some? && |found.seasons.value| > 0 then
          var first := found.seasons.value[0];
          var s2 := s1.(season := Some(first));
          if |first.episodes| > 0 then ChangeEpisode(s2, first.episodes[0]) else s2
        else if found.kind == Movie then
          s1.(store := Store.SetWatchedProgress(s.store, found.id, Store.Num(100)))
        else
          s1
  }

  /** Whether the episode with this id sits in the given season. */
  predicate InSeason(season: Season, id: string) {
    Seqs.Any(season.episodes, (e: Episode) => e.id == id)
  }

  /** `nextUp`. The position of the current episode in the current season
      is found by id (-1 when absent); if a later episode exists there it is
      next. Otherwise the current season's position in the item is found by
      id (-1 when absent) and the following season's first episode is next,
      or nothing when that season is empty or there is no following season. */
  function NextUp(item: Option<Media>, season: Option<Season>, episode: Option<Episode>): (r: Option<Episode>)
    ensures season.None? || episode.None? ==> r.None?
    ensures r.Some? && !(r.value in season.value.episodes) ==>
      item.Some? && item.value.seasons.Some? &&
      exists k :: 0 <= k < |item.value.seasons.value| &&
        |item.value.seasons.value[k].episodes| > 0 && r.value == item.value.seasons.value[k].episodes[0]
  {
    if season.None? || episode.None? then None
    else
      var eps := season.value.episodes;
      var ci := Seqs.FindIndex(eps, (e: Episode) => e.id == episode.value.id);
      if ci < |eps| - 1 then Some(eps[ci + 1])
      else if item.Some? && item.value.seasons.Some? then
        var all := item.value.seasons.value;
        var si := Seqs.FindIndex(all, (x: Season) => x.id == season.value.id);
        if si < |all| - 1 then
          var following := all[si + 1];
          if |following.episodes| > 0 then Some(following.episodes[0]) else None
        else None
      else None
  }

  /** `handleNextEpisode`: with a next episode in the current season only
      the episode moves; otherwise the first season containing it becomes
      current together with it. */
  function Next(s: Session): (r: Session)
    ensures NextUp(s.item, s.season, s.episode).None? ==> r == s
    ensures r.item == s.item && r.selectorOpen == s.selectorOpen && r.sidebarVisible == s.sidebarVisible
    ensures r.season != s.season ==>
      s.season.Some? && NextUp(s.item, s.season, s.episode).Some?
      && !InSeason(s.season.value, NextUp(s.item, s.season, s.episode).value.id)
  {
    match NextUp(s.item, s.season, s.episode)
    case None => s
    case Some(n) =>
      if InSeason(s.season.value, n.id) then ChangeEpisode(s, n)
      else if s.item.Some? && s.item.value.seasons.Some? then
        match Seqs.Find(s.item.value.seasons.value, (x: Season) => InSeason(x, n.id))
        case Some(ns) => ChangeEpisode(s.(season := Some(ns)), n)
        case None => s
      else s
  }

  /** The season selector's entry: the season becomes current and the
      selector closes; a non-empty season also moves the cursor to its first
      episode, an empty one keeps the previous episode. */
  function PickSeason(s: Session, season: Season): (r: Session)
    ensures r.season == Some(season) && !r.selectorOpen
    ensures |season.episodes| > 0 ==> r.episode == Some(season.episodes[0])
    ensures |season.episodes| == 0 ==> r.episode == s.episode && r.store == s.store
    ensures r.item == s.item && r.sidebarVisible == s.sidebarVisible
  {
    var s1 := s.(season := Some(season), selectorOpen := false);
    if |season.episodes| > 0 then ChangeEpisode(s1, season.episodes[0]) else s1
  }

  /** An episode card: the episode becomes current; on a narrow window
      (below 1024 pixels) the sidebar also closes. */
  function PickEpisode(s: Session, e: Episode, narrow: bool): (r: Session)
    ensures r.episode == Some(e) && r.season == s.season && r.item == s.item
    ensures r.sidebarVisible == (s.sidebarVisible && !narrow)
  {
    ChangeEpisode(s, e).(sidebarVisible := s.sidebarVisible && !narrow)
  }

  datatype Event =
    | LoadRoute(id: string, catalog: seq<Media>)
    | NextEpisode
    | ChooseSeason(season: Season)
    | ChooseEpisode(episode: Episode, narrow: bool)
    | ToggleSelector
    | ShowSidebar(visible: bool)

  function Step(s: Session, e: Event): Session {
    match e
    case LoadRoute(id, catalog) => Load(s, id, catalog)
    case NextEpisode => Next(s)
    case ChooseSeason(season) => PickSeason(s, season)
    case ChooseEpisode(ep, narrow) => PickEpisode(s, ep, narrow)
    case ToggleSelector => s.(selectorOpen := !s.selectorOpen)
    case ShowSidebar(v) => s.(sidebarVisible := v)
  }

  function Run(s: Session, es: seq<Event>): Session
    decreases |es|
  {
    if es == [] then s else Run(Step(s, es[0]), es[1..])
  }

  /** The source the player is given: the item's own URL for a movie, the
      current episode's for a series; nothing before an item is loaded. */
  function ActiveVideoUrl(s: Session): (u: Option<string>)
    ensures s.item.None? ==> u.None?
    ensures s.item.Some? && s.item.value.kind == Movie ==> u == s.item.value.videoUrl
    ensures s.item.Some? && s.item.value.kind == Series ==>
      (u.Some? <==> s.episode.Some?) && (u.Some? ==> u.value == s.episode.value.videoUrl)
  {
    if s.item.None? then None
    else if s.item.value.kind == Movie then s.item.value.videoUrl
    else if s.episode.Some? then Some(s.episode.value.videoUrl)
    else None
  }

  /** The player is mounted only for a non-empty source; otherwise the
      loading placeholder shows. */
  predicate PlayerShown(s: Session) {
    var u := ActiveVideoUrl(s);
    u.Some? && u.value != ""
  }

  /** The player title: the item title for a movie, "title: episode" for a
      series, where a missing episode prints as "undefined". */
  function ActiveTitle(m: Media, episode: Option<Episode>): (t: string)
    ensures m.kind == Movie ==> t == m.title
    ensures m.kind == Series ==> |m.title| + 2 <= |t| && t[..|m.title|] == m.title && t[|m.title|..|m.title| + 2] == ": "
    ensures m.kind == Series && episode.Some? ==> t[|m.title| + 2..] == episode.value.title
    ensures m.kind == Series && episode.None? ==> t[|m.title| + 2..] == "undefined"
  {
    if m.kind == Movie then m.title
    else m.title + ": " + (if episode.Some? then episode.value.title else "undefined")
  }

  /** The "next" button sits in the series sidebar and shows only when a
      next episode exists. */
  predicate NextButtonShown(s: Session) {
    s.item.Some? && s.item.value.kind == Series && s.item.value.seasons.Some?
    && NextUp(s.item, s.season, s.episode).Some?
  }

  /** Every episode the cursor has rested on reads as 100 in a healthy
      store. */
  predicate Marked(s: Session) {
    Store.Healthy(s.store) && s.episode.Some? ==>
      Store.GetWatchedProgress(s.store, s.episode.value.id) == 100
  }

  /** The sidebar card's number for the episode at `index`: a leading zero
      below 10, the plain number from 10 on. */
  function SidebarLabel(index: nat): (l: string)
    ensures 2 <= |l|
    ensures Text.AllDigits(l) && Text.DigitsValue(l) == index + 1
  {
    var n := index + 1;
    Text.NatToStringValue(n);
    if n < 10 then
      Text.LeadingZero(Text.NatToString(n));
      "0" + Text.NatToString(n)
    else Text.NatToString(n)
  }

  /** The card label is the same two-digit padding the player's clock uses. */
  lemma SidebarLabelIsPad2(index: nat)
    ensures SidebarLabel(index) == Text.Pad2(index + 1)
  {
    var n := index + 1;
    var digits := Text.NatToString(n);
    if n < 10 {
      assert Text.PadStart(digits, 2, '0') == Text.PadStart(['0'] + digits, 2, '0');
    }
  }

  // ---------------------------------------------------------------------
  // Properties
  // ---------------------------------------------------------------------

  /** Ids are unique within a list of episodes. */
  predicate UniqueEpisodeIds(eps: seq<Episode>) {
    forall i, j :: 0 <= i < j < |eps| ==> eps[i].id != eps[j].id
  }

  predicate UniqueSeasonIds(ss: seq<Season>) {
    forall i, j :: 0 <= i < j < |ss| ==> ss[i].id != ss[j].id
  }

  /** Loading a series with at least one season puts the cursor on its
      first season, and on that season's first episode when there is one;
      otherwise the episode is left as it was. */
  lemma LoadSeries(s: Session, catalog: seq<Media>, k: nat)
    requires k < |catalog| && catalog[k].id != ""
    requires forall j :: 0 <= j < k ==> catalog[j].id != catalog[k].id
    requires catalog[k].kind == Series && catalog[k].seasons.Some? && |catalog[k].seasons.value| > 0
    ensures Load(s, catalog[k].id, catalog).item == Some(catalog[k])
    ensures Load(s, catalog[k].id, catalog).season == Some(catalog[k].seasons.value[0])
    ensures Load(s, catalog[k].id, catalog).redirected == s.redirected
    ensures |catalog[k].seasons.value[0].episodes| > 0 ==>
              Load(s, catalog[k].id, catalog).episode == Some(catalog[k].seasons.value[0].episodes[0])
    ensures |catalog[k].seasons.value[0].episodes| == 0 ==> Load(s, catalog[k].id, catalog).episode == s.episode
  {
    assert Lookup(catalog, catalog[k].id) == Some(catalog[k]);
  }

  /** Loading a movie records it as fully watched in a healthy store. */
  lemma LoadMovie(s: Session, catalog: seq<Media>, k: nat)
    requires k < |catalog| && catalog[k].id != ""
    requires forall j :: 0 <= j < k ==> catalog[j].id != catalog[k].id
    requires catalog[k].kind == Movie
    requires Store.Healthy(s.store)
    ensures var r := Load(s, catalog[k].id, catalog);
      r.item == Some(catalog[k]) && r.season == s.season && r.episode == s.episode &&
      Store.GetWatchedProgress(r.store, catalog[k].id) == 100
  {
    assert Lookup(catalog, catalog[k].id) == Some(catalog[k]);
  }

  /** Right after loading, the player plays the movie's own source under its
      title, or the first episode of a series' first season under
      "title: episode title". */
  lemma LoadedPlayerSource(s: Session, catalog: seq<Media>, k: nat)
    requires k < |catalog| && catalog[k].id != ""
    requires forall j :: 0 <= j < k ==> catalog[j].id != catalog[k].id
    ensures var m, r := catalog[k], Load(s, catalog[k].id, catalog);
      m.kind == Movie ==> ActiveVideoUrl(r) == m.videoUrl && ActiveTitle(m, r.episode) == m.title
    ensures var m, r := catalog[k], Load(s, catalog[k].id, catalog);
      m.kind == Series && m.seasons.Some? && |m.seasons.value| > 0 && |m.seasons.value[0].episodes| > 0 ==>
        var first := m.seasons.value[0].episodes[0];
        ActiveVideoUrl(r) == Some(first.videoUrl) && ActiveTitle(m, r.episode) == m.title + ": " + first.title
  {
    var m := catalog[k];
    assert Lookup(catalog, m.id) == Some(m);
    var r := Load(s, m.id, catalog);
    assert r.item == Some(m);
    if m.kind == Series && m.seasons.Some? && |m.seasons.value| > 0 && |m.seasons.value[0].episodes| > 0 {
      assert r.episode == Some(m.seasons.value[0].episodes[0]);
    }
  }

  /** An unknown id redirects home and sets no item. */
  lemma LoadUnknown(s: Session, id: string, catalog: seq<Media>)
    requires id != ""
    requires forall j :: 0 <= j < |catalog| ==> catalog[j].id != id
    ensures Load(s, id, catalog) == s.(redirected := true)
  {
  }

  /** Inside a season, the episode after the current one is next. */
  lemma NextWithinSeason(item: Option<Media>, season: Season, eps: seq<Episode>, i: nat)
    requires eps == season.episodes && UniqueEpisodeIds(eps)
    requires i + 1 < |eps|
    ensures NextUp(item, Some(season), Some(eps[i])) == Some(eps[i + 1])
  {
    assert Seqs.FindIndex(eps, (e: Episode) => e.id == eps[i].id) == i;
  }

  /** At the last episode of season k, the next season's first episode is
      next; an empty next season gives nothing. */
  lemma NextCrossesSeason(m: Media, k: nat)
    requires m.seasons.Some? && UniqueSeasonIds(m.seasons.value)
    requires k + 1 < |m.seasons.value|
    requires |m.seasons.value[k].episodes| > 0 && UniqueEpisodeIds(m.seasons.value[k].episodes)
    ensures var here := m.seasons.value[k];
      var last := here.episodes[|here.episodes| - 1];
      var following := m.seasons.value[k + 1];
      NextUp(Some(m), Some(here), Some(last))
        == if |following.episodes| > 0 then Some(following.episodes[0]) else None
  {
    var here := m.seasons.value[k];
    var eps := here.episodes;
    var last := eps[|eps| - 1];
    assert Seqs.FindIndex(eps, (e: Episode) => e.id == last.id) == |eps| - 1;
    assert Seqs.FindIndex(m.seasons.value, (x: Season) => x.id == here.id) == k;
  }

  /** At the last episode of a season followed by an empty season, the
      "next" button is not rendered. */
  lemma EmptyNextSeasonHidesButton(s: Session, k: nat)
    requires s.item.Some? && s.item.value.seasons.Some?
    requires UniqueSeasonIds(s.item.value.seasons.value)
    requires k + 1 < |s.item.value.seasons.value|
    requires var here := s.item.value.seasons.value[k];
      |here.episodes| > 0 && UniqueEpisodeIds(here.episodes)
      && s.season == Some(here) && s.episode == Some(here.episodes[|here.episodes| - 1])
    requires |s.item.value.seasons.value[k + 1].episodes| == 0
    ensures !NextButtonShown(s)
  {
    NextCrossesSeason(s.item.value, k);
  }

  /** At the last episode of the last season there is nothing next. */
  lemma NextAtEnd(m: Media)
    requires m.seasons.Some? && |m.seasons.value| > 0 && UniqueSeasonIds(m.seasons.value)
    requires var here := m.seasons.value[|m.seasons.value| - 1];
      |here.episodes| > 0 && UniqueEpisodeIds(here.episodes)
    ensures var here := m.seasons.value[|m.seasons.value| - 1];
      NextUp(Some(m), Some(here), Some(here.episodes[|here.episodes| - 1])).None?
  {
    var all := m.seasons.value;
    var here := all[|all| - 1];
    var eps := here.episodes;
    assert Seqs.FindIndex(eps, (e: Episode) => e.id == eps[|eps| - 1].id) == |eps| - 1;
    assert Seqs.FindIndex(all, (x: Season) => x.id == here.id) == |all| - 1;
  }

  /** After "next", the cursor rests on the announced episode and that
      episode belongs to the (possibly new) current season. */
  lemma NextLandsInSeason(s: Session)
    requires NextUp(s.item, s.season, s.episode).Some?
    ensures var n := NextUp(s.item, s.season, s.episode).value;
      var r := Next(s);
      r.episode == Some(n) && r.season.Some? && InSeason(r.season.value, n.id)
  {
    var n := NextUp(s.item, s.season, s.episode).value;
    if !InSeason(s.season.value, n.id) {
      var eps := s.season.value.episodes;
      var all := s.item.value.seasons.value;
      var k :| 0 <= k < |all| && |all[k].episodes| > 0 && n == all[k].episodes[0];
      assert InSeason(all[k], n.id);
      var p := (x: Season) => InSeason(x, n.id);
      assert p(all[k]);
      var f := Seqs.Find(all, p);
      assert f.Some?;
    }
  }

  lemma ChangeEpisodeKeepsMarked(s: Session, e: Episode)
    requires Marked(s)
    ensures Marked(ChangeEpisode(s, e))
  {
  }

  lemma LoadKeepsMarked(s: Session, id: string, catalog: seq<Media>)
    requires Marked(s)
    ensures Marked(Load(s, id, catalog))
  {
    if id != "" {
      match Lookup(catalog, id)
      case None =>
      case Some(found) =>
        var s1 := s.(item := Some(found));
        if found.kind == Series && found.seasons.Some? && |found.seasons.value| > 0 {
          var first := found.seasons.value[0];
          if |first.episodes| > 0 {
            ChangeEpisodeKeepsMarked(s1.(season := Some(first)), first.episodes[0]);
          }
        }
    }
  }

  lemma NextKeepsMarked(s: Session)
    requires Marked(s)
    ensures Marked(Next(s))
  {
    match NextUp(s.item, s.season, s.episode)
    case None =>
    case Some(n) =>
      ChangeEpisodeKeepsMarked(s, n);
      if !InSeason(s.season.value, n.id) && s.item.Some? && s.item.value.seasons.Some? {
        match Seqs.Find(s.item.value.seasons.value, (x: Season) => InSeason(x, n.id))
        case Some(ns) => ChangeEpisodeKeepsMarked(s.(season := Some(ns)), n);
        case None =>
      }
  }

  /** Every event keeps the "cursor is marked watched" invariant. */
  lemma StepKeepsMarked(s: Session, e: Event)
    requires Marked(s)
    ensures Marked(Step(s, e))
  {
    match e
    case LoadRoute(id, catalog) => LoadKeepsMarked(s, id, catalog);
    case NextEpisode => NextKeepsMarked(s);
    case ChooseSeason(season) =>
      if |season.episodes| > 0 {
        ChangeEpisodeKeepsMarked(s.(season := Some(season), selectorOpen := false), season.episodes[0]);
      }
    case ChooseEpisode(ep, narrow) => ChangeEpisodeKeepsMarked(s, ep);
    case ToggleSelector =>
    case ShowSidebar(v) =>
  }

  /** From a fresh page, however the user navigates, the current episode
      always reads as fully watched in a healthy store. */
  lemma {:induction false} RunKeepsMarked(s: Session, es: seq<Event>)
    requires Marked(s)
    ensures Marked(Run(s, es))
    decreases |es|
  {
    if es != [] {
      StepKeepsMarked(s, es[0]);
      RunKeepsMarked(Step(s, es[0]), es[1..]);
    }
  }

  lemma FreshMarked(store: Store.Storage)
    ensures Marked(Fresh(store))
  {
  }

  /** The player is shown for a series exactly when an episode with a
      non-empty URL is current. */
  lemma SeriesPlayerShown(s: Session)
    requires s.item.Some? && s.item.value.kind == Series
    ensures PlayerShown(s) <==> s.episode.Some? && s.episode.value.videoUrl != ""
  {
  }
}

=== FILE: wrappers.dfy ===
/** Option and Result wrappers shared by every module of the model. */
module Wrappers {

  /** A present value or nothing; stands for the JavaScript `null`/`undefined`
      results and for the optional fields of the catalog records. */
  datatype Option<+T> = None | Some(value: T) {

    function GetOr(default: T): T {
      match this
      case Some(v) => v
      case None => default
    }
  }

  /** The outcome of a handler that can throw: `Err` means the handler threw
      before it committed any new state. */
  datatype Result<+T, +E> = Ok(value: T) | Err(error: E)
}
